=== FILE: README.md ===
# DSP56300 JIT register allocation, modelled in Dafny

The DSP56300 emulator's JIT compiler keeps emulated DSP registers in host (x86-64)
registers while it compiles a block. This project models the bookkeeping core of that
register allocator:

- **`DspReg`**: the enumeration of emulated register identifiers. It covers R0..R7,
  N0..N7, M0..M7, A, B, X, Y, ExtMem, SR, LC, LA and the eight temporaries TempA..TempH.
  `DspCount` (40) doubles as the "no register" sentinel. Module `DspRegs`.
- **The lock and dirty masks**: the 64-bit words `m_lockedGps` and `m_writtenDspRegs`,
  and their set/clear/test helpers. Modules `RegMask` and `DspRegPool`.
- **`hasWrittenRegs`**, **`setRepMode`** and the repeat-mode `push` onto a list. Module
  `DspRegPool`.
- **`RegisterList<T>`**: one per host register class. Each holds a free-list of host
  registers, a recency order of resident identifiers, and a slot per identifier naming
  its host register. Operations: `acquire`, `release`, `addHostReg`, `clear` and the
  queries. Module `RegisterLists`.
- **`JitRegpool`**: the stack of scratch host registers, and **`JitScopedReg`**, which
  holds at most one of them. Module `ScratchPool`.
- **The RAII guards**:
  - `DSPReg` maps and locks an identifier for its lifetime.
  - `DSPRegTemp` holds a temporary identifier and uses the sentinel once released.
  - `PushGP` and `PushXMM` save a host register on the host stack only when the pool
    uses it.
  - `PushXMMRegs`, `PushGPRegs` and `PushBeforeFunctionCall` bundle those around an
    external call.

  Module `Guards`.

The pool's out-of-line operations (`get`, `lock`, `unlock`, `aquireTemp`, `releaseTemp`,
`isInUse`) are not part of this model. The guards are modelled as state machines that
emit the calls they make as a trace of events. The answers of `aquireTemp` and
`isInUse` are parameters. Generated code is a tree of nested guard scopes (`Block`).
A block may also contain an explicit `release()` of an enclosing temporary guard,
anywhere in that guard's scope, including inside guards built after it. The guard's
destructor then finds it no longer acquired and makes no call. Three whole-tree
properties are proved:

- every lock, temporary and host-stack slot taken is given back, when every explicit
  release in the block is of a guard opened in the block, once;
- no call hands the sentinel to the pool, since every explicit release in a block is
  traced as a release of a temporary still held;
- the host stack is restored.

A 64-bit mask is represented by the set of positions of its one-bits. The enumeration
has 40 identifiers, so every shift `1ull << r` is in range (`DspRegs.EnumerationLayout`).

Two behaviours of the code worth noting:

- `RegisterList::acquire` and `release` take an explicit `_pushFront` argument. They do
  not consult the repeat-mode flag themselves. In `acquire`, `_pushFront` also
  suppresses the move of a resident identifier to the back of the recency order.
- `RegisterList::clear` empties the free-list as well. It does not give the host
  registers back.

## Model

| member | source | states |
|---|---|---|
| DspRegs.EnumerationLayout | source/dsp56kEmu/jitdspregpool.h:15-32 | Every identifier is a valid bit position of a 64-bit word; the temporaries are the last eight identifiers, ending at `LastTemp == DspCount - 1` |
| RegMask.Set | source/dsp56kEmu/jitdspregpool.h:76 | After OR-ing in `1ull << r`, an identifier's bit is set iff it is `r` or was already set; no bit above the enumeration appears |
| RegMask.Clear | source/dsp56kEmu/jitdspregpool.h:77 | After AND-ing with `~(1ull << r)`, an identifier's bit is set iff it is not `r` and was set; no bit above the enumeration appears |
| RegMask.NonZeroIffSomeSet | source/dsp56kEmu/jitdspregpool.h:48 | For a mask with no stray bits, "the word is non-zero" holds iff some identifier's bit is set |
| DspRegPool.SetWritten | source/dsp56kEmu/jitdspregpool.h:75-76 | `r` becomes dirty, so `isWritten(r)` is true; every other identifier's `isWritten` answer, the lock mask, the lists and the repeat flag are unchanged |
| DspRegPool.ClearWritten | source/dsp56kEmu/jitdspregpool.h:77 | `r` becomes clean; every other dirty flag and the rest of the pool are unchanged |
| DspRegPool.SetLocked | source/dsp56kEmu/jitdspregpool.h:79-80 | `r` becomes locked, so `isLocked(r)` is true; every other identifier's `isLocked` answer and the rest of the pool are unchanged |
| DspRegPool.ClearLocked | source/dsp56kEmu/jitdspregpool.h:81 | `r` becomes unlocked; every other lock flag and the rest of the pool are unchanged |
| DspRegPool.FlagsIndependent | source/dsp56kEmu/jitdspregpool.h:75-81 | `isWritten` and `isLocked` read separate words: locking or unlocking never changes a dirty flag, and marking dirty or clean never changes a lock flag |
| DspRegPool.HasWrittenRegsIffSomeWritten | source/dsp56kEmu/jitdspregpool.h:48 | `hasWrittenRegs()` is true iff some identifier is dirty |
| DspRegPool.WrittenRoundTrip | source/dsp56kEmu/jitdspregpool.h:75-77 | From a clean pool, `setWritten(r)` makes `hasWrittenRegs()` true and a following `clearWritten(r)` makes it false again |
| DspRegPool.SetRepMode | source/dsp56kEmu/jitdspregpool.h:50 | Only the repeat-mode flag changes, to the given value |
| DspRegPool.Push | source/dsp56kEmu/jitdspregpool.h:67-73 | In repeat mode the element goes to the front, otherwise to the back; either way the list gains exactly that element |
| Seqs.Insert | source/dsp56kEmu/jitdspregpool.h:167-173 | Front insertion puts `x` before the old list, back insertion after it; the multiset grows by exactly `x` |
| Seqs.RemoveFirst | source/dsp56kEmu/jitdspregpool.h:174-184 | Erases one occurrence when `x` is present (length drops by one, multiset loses one `x`); otherwise the list is unchanged |
| Seqs.FirstIndex | source/dsp56kEmu/jitdspregpool.h:176-183 | The position the loop stops at holds `x`, and `x` occurs nowhere before it |
| Seqs.RemoveFirstKeepsOrder | source/dsp56kEmu/jitdspregpool.h:174-184 | Erasing removes exactly the first occurrence of `x`; the elements before and after it stay in order |
| Seqs.RemoveFirstNoDup | source/dsp56kEmu/jitdspregpool.h:174-184 | On a duplicate-free list, erasing leaves exactly the other elements, still duplicate-free |
| Seqs.RemoveFirstAppended | source/dsp56kEmu/jitdspregpool.h:174-184 | Erasing an element that was just appended, and occurs nowhere else, restores the list |
| RegisterLists.Create | source/dsp56kEmu/jitdspregpool.h:86-90 | A new list satisfies the bookkeeping invariant and knows no host register and no resident identifier |
| RegisterLists.IsUsedHost | source/dsp56kEmu/jitdspregpool.h:94-102 | The slot scan answers true iff some identifier's slot holds the host register |
| RegisterLists.QueriesAgree | source/dsp56kEmu/jitdspregpool.h:93-105 | Under the invariant, `isUsed(id)` holds iff the identifier is in the recency order, `empty()` holds iff no identifier is used, and `size()` is the number of resident identifiers |
| RegisterLists.FullIffAllBound | source/dsp56kEmu/jitdspregpool.h:92-104 | Under the invariant, `isFull()` holds iff every host register the list knows of is bound to an identifier, and `available()` is the number of distinct free host registers, none of them bound |
| RegisterLists.Acquire | source/dsp56kEmu/jitdspregpool.h:107-132 | Succeeds iff the identifier is resident or the free-list is non-empty; on success its slot holds the returned register; on failure nothing changes; no other slot changes |
| RegisterLists.AcquireResident | source/dsp56kEmu/jitdspregpool.h:109-120 | A resident identifier keeps its register and the free-list is untouched; with `_pushFront` the order is kept, otherwise the identifier moves to the back and the others keep their order |
| RegisterLists.AcquireFresh | source/dsp56kEmu/jitdspregpool.h:122-131 | A non-resident identifier takes the front of the free-list and joins the recency order at the requested end: one fewer free register, one more resident identifier |
| RegisterLists.AcquirePreserves | source/dsp56kEmu/jitdspregpool.h:107-132 | `acquire` keeps the invariant (the identifier/register bijection, no duplicates, free and bound registers disjoint), `available() + size()`, and the set of known host registers |
| RegisterLists.Release | source/dsp56kEmu/jitdspregpool.h:140-149 | Returns the identifier's slot, which is invalid (a `false` return) exactly when nothing changes; afterwards the identifier is not used; no other slot changes |
| RegisterLists.ReleaseResident | source/dsp56kEmu/jitdspregpool.h:140-149 | A resident identifier's register goes to the requested end of the free-list; the identifier leaves the recency order and its slot is reset: one more free register, one fewer resident identifier |
| RegisterLists.ReleasePreserves | source/dsp56kEmu/jitdspregpool.h:140-149 | `release` keeps the invariant, `available() + size()`, and the set of known host registers |
| RegisterLists.AcquireThenRelease | source/dsp56kEmu/jitdspregpool.h:107-149 | Acquiring a free identifier and releasing it to the front restores the list exactly and hands back the register taken |
| RegisterLists.ReleaseThenAcquire | source/dsp56kEmu/jitdspregpool.h:107-149 | Releasing a resident identifier to the front and acquiring it again gives the same register back and restores the free-list and the slots |
| RegisterLists.AddHostReg | source/dsp56kEmu/jitdspregpool.h:151-154 | The register is appended at the back of the free-list and the registers already free keep their positions, which decides what `acquire` takes next; the recency order and the slots are unchanged; the known registers grow by it |
| RegisterLists.AddHostRegPreserves | source/dsp56kEmu/jitdspregpool.h:151-154 | Adding a register the list does not know yet keeps the invariant |
| RegisterLists.SeedList | source/dsp56kEmu/jitdspregpool.h:151-154 | Adding distinct registers to a new list, one by one, gives a valid list whose free-list is those registers in order, with nothing resident |
| RegisterLists.Clear | source/dsp56kEmu/jitdspregpool.h:156-162 | Afterwards every slot is reset, both vectors are empty (so the list is also full), and the invariant holds |
| ScratchPool.Create | source/dsp56kEmu/jitregtracker.cpp:152-156 | The pool holds as many registers as given, and the last one given is on top |
| ScratchPool.Put | source/dsp56kEmu/jitregtracker.cpp:158-161 | The register is on top, the count grows by one, and the contents grow by exactly that register |
| ScratchPool.Get | source/dsp56kEmu/jitregtracker.cpp:163-169 | Requires a register to be left, as the assertion does; returns the top and removes exactly it |
| ScratchPool.EmptyMeansNothingLeft | source/dsp56kEmu/jitregtracker.cpp:171-174 | `empty()` is false exactly when the pool is some pool with one more register `put` on it; a pool built from no registers is empty |
| ScratchPool.PutThenGet | source/dsp56kEmu/jitregtracker.cpp:158-169 | `get()` right after `put(r)` returns `r` and restores the pool |
| ScratchPool.GetThenPut | source/dsp56kEmu/jitregtracker.cpp:158-169 | Putting back what `get()` returned restores the pool |
| ScratchPool.DrainIsReverse | source/dsp56kEmu/jitregtracker.cpp:152-169 | Getting as many registers as the constructor was given returns them last-first and leaves the pool as it was before them |
| ScratchPool.ScopedAcquire | source/dsp56kEmu/jitregtracker.cpp:176-183 | A held register is kept and the pool untouched; otherwise the top is taken and putting it back restores the pool |
| ScratchPool.ScopedRelease | source/dsp56kEmu/jitregtracker.cpp:185-191 | Nothing is held afterwards; only a held register goes back to the pool |
| ScratchPool.ScopedIdempotent | source/dsp56kEmu/jitregtracker.cpp:176-191 | A second `acquire` or `release` changes nothing, and neither call loses or duplicates a register between holder and pool |
| ScratchPool.ScopedRoundTrip | source/dsp56kEmu/jitregtracker.cpp:176-191 | `acquire` then `release` restores the pool |
| Guards.DSPRegConstruct | source/dsp56kEmu/jitregtracker.cpp:201-205 | The guard holds the identifier it was built for |
| Guards.DSPRegLifetime | source/dsp56kEmu/jitregtracker.cpp:201-210 | The guard maps the identifier first; the only claim it takes is the lock on that identifier, and `DSPRegDestroy` gives back exactly that lock |
| Guards.DSPRegBrackets | source/dsp56kEmu/jitregtracker.cpp:201-210 | Whatever the guarded code does, the guard's first calls are `get` and `lock` of its identifier and its last call is the matching `unlock` |
| Guards.TempAcquire | source/dsp56kEmu/jitregtracker.cpp:17-22 | After `acquire` the guard holds the temporary `aquireTemp` returned |
| Guards.TempRelease | source/dsp56kEmu/jitregtracker.cpp:24-29 | After `release` the guard holds the sentinel, so it is no longer acquired |
| Guards.TempConstruct | source/dsp56kEmu/jitregtracker.cpp:6-9 | A new guard holds the temporary it acquired |
| Guards.TempDestroy | source/dsp56kEmu/jitregtracker.cpp:11-15 | The destructor makes calls iff the guard is still acquired, and never names the sentinel |
| Guards.TempEnterClaims | source/dsp56kEmu/jitregtracker.cpp:17-22 | `acquire` takes the temporary and its lock and gives nothing back |
| Guards.ReleaseClaims | source/dsp56kEmu/jitregtracker.cpp:24-29 | An explicit `release` gives back the temporary and its lock and takes nothing |
| Guards.Leave | source/dsp56kEmu/jitregtracker.cpp:11-15 | When a scope closes, a temporary guard that its body released makes no call; any other guard runs its destructor |
| Guards.TempTraceCalls | source/dsp56kEmu/jitregtracker.cpp:6-29 | With or without an early `release`, the guard makes the same five calls: take, map, lock, unlock, give back |
| Guards.TempLifetime | source/dsp56kEmu/jitregtracker.cpp:6-29 | The temporary and its lock are each taken once and given back once, in reverse order, and the sentinel never reaches the pool |
| Guards.SecondReleaseNamesSentinel | source/dsp56kEmu/jitregtracker.cpp:11-29 | After an explicit `release`, a second `release` would unlock the sentinel, and the destructor makes no call |
| Guards.PushGPConstruct | source/dsp56kEmu/jitregtracker.cpp:56-60 | The guard pushes iff `!onlyIfUsedInPool` or the pool uses the register |
| Guards.PushGPLifetime | source/dsp56kEmu/jitregtracker.cpp:56-66 | A pushed register takes one stack slot and `PushGPDestroy` gives it back exactly when the constructor pushed; the host stack is left as it was; every call is a push or pop on the host stack, none into the pool |
| Guards.PushGPBrackets | source/dsp56kEmu/jitregtracker.cpp:56-66 | When the guard saves, it pushes first and pops last around any guarded code; otherwise it adds no call |
| Guards.PushXMMConstruct | source/dsp56kEmu/jitregtracker.cpp:91-109 | The guard records the XMM index and whether the pool had it loaded |
| Guards.PushXMMLifetime | source/dsp56kEmu/jitregtracker.cpp:91-131 | A loaded XMM register takes one stack slot and `PushXMMDestroy` gives it back exactly when it was loaded at construction; the host stack is left as it was; every call is a push or pop on the host stack, none into the pool |
| Guards.PushXMMBrackets | source/dsp56kEmu/jitregtracker.cpp:91-131 | When the register is loaded, the guard pushes first and pops last around any guarded code; otherwise it adds no call |
| Guards.GuardStack | source/dsp56kEmu/jitregtracker.cpp:56-131 | Each guard's constructor pushes exactly the registers it saves, and its destructor pops them off the same stack |
| Guards.GuardCallsBalanced | source/dsp56kEmu/jitregtracker.cpp:6-210 | For every guard kind, the constructor's and destructor's calls together give back every claim they take, and never name the sentinel |
| Guards.TempGuardCalls | source/dsp56kEmu/jitregtracker.cpp:6-29 | A `DSPRegTemp`'s constructor and destructor calls give back the temporary and the lock they take, and never name the sentinel |
| Guards.RegGuardCalls | source/dsp56kEmu/jitregtracker.cpp:201-210 | A `DSPReg`'s constructor and destructor calls give back the lock they take |
| Guards.GpGuardCalls | source/dsp56kEmu/jitregtracker.cpp:56-66 | A `PushGP`'s constructor and destructor calls give back the stack slot they take |
| Guards.XmmGuardCalls | source/dsp56kEmu/jitregtracker.cpp:91-131 | A `PushXMM`'s constructor and destructor calls give back the stack slot they take |
| Guards.BlockClaims | source/dsp56kEmu/jitregtracker.cpp:24-29 | For any nesting of guards and explicit releases, what the block takes plus what its explicit releases of guards opened outside it give back is exactly what it gives back |
| Guards.BlockBalanced | source/dsp56kEmu/jitregtracker.cpp:6-210 | For any nesting of guards in which every explicit `release()` is of a temporary guard opened in the block, once, every temporary and lock taken by `DSPRegTemp` (6-29) and `DSPReg` (201-210) and every host-stack slot taken by `PushGP` (56-66) and `PushXMM` (91-131) is given back |
| Guards.ReleaseUnderNestedGuard | source/dsp56kEmu/jitregtracker.cpp:24-29 | A `release()` made while a `DSPReg` built later is still alive unlocks and returns the temporary before that guard's `unlock`; the destructor makes no call; the calls balance |
| Guards.ReleaseAtScopeEnd | source/dsp56kEmu/jitregtracker.cpp:11-29 | A `release()` as the last statement of the scope makes the same calls as a guard released before its destructor |
| Guards.BlockNoSentinel | source/dsp56kEmu/jitregtracker.cpp:11-29 | For any nesting of guards and explicit releases of held temporaries, no call hands the sentinel identifier to the pool (a second release of a released guard is not expressible; see "## Left out") |
| Guards.BlockRestoresStack | source/dsp56kEmu/jitregtracker.cpp:56-131 | For any nesting of guards, started on any host stack, every pop restores the register that was pushed last and the stack ends as it began |
| Guards.XmmRegGuards | source/dsp56kEmu/jitregtracker.cpp:133-136 | `PushXMMRegs` is six saving guards |
| Guards.GpRegGuards | source/dsp56kEmu/jitregtracker.cpp:142-146 | `PushGPRegs` is four saving guards; that each saves its register only if the pool uses it is proved by `Guards.CallerSavedIffInUse` |
| Guards.ChainTrace | source/dsp56kEmu/jitregtracker.cpp:133-150 | Nested saving guards push every saved register in member order before the body and pop them in reverse order after it |
| Guards.SavedByMembers | source/dsp56kEmu/jitregtracker.cpp:133-150 | A register is saved by a group of guards iff one of its members saves it |
| Guards.PushBeforeFunctionCallTrace | source/dsp56kEmu/jitregtracker.cpp:148-150 | Around an external call, the registers `PushBeforeFunctionCall` saves are pushed before the call and popped in reverse order after it |
| Guards.CallerSavedIffInUse | source/dsp56kEmu/jitregtracker.cpp:133-150 | `xmm0`..`xmm5` and `r8`..`r11` are each saved iff the pool uses them, and no other register is saved |

## Left out

- Code emission: the asmjit instructions, and the host stack's own bookkeeping beyond
  push/pop order. The call `m_block.stack().setUsed` in `JitScopedReg::acquire` belongs
  to `JitBlock`'s host-stack helper, outside this core. `jitruntimedata.h` only holds
  runtime counters (instruction count, next PC, a pending program-memory write) that no
  modelled operation touches.
- `PushShadowSpace`: it only acts under one compiler. Its constructor emits four
  placeholder pushes; its destructor builds a `RegGP`, which takes a register from the
  general-purpose scratch pool (`ScratchPool`), and pops into it four times.
- The `g_push128Bits` branches of `PushXMM`: the constant is false, so they never run.
- `AluReg`: it holds a scratch register and calls `getALU`/`setALU` on the DSP register
  store reached through `m_block.regs()`, not on the pool; that store is outside this
  core.
- `AguReg`: it only constructs a `DSPReg` for `_regBase + _aguIndex`, which
  `Guards.DSPRegLifetime` covers.
- The out-of-line `JitDspRegPool` members (`get`, `read`, `write`, `lock`, `unlock`,
  `releaseAll`, `releaseWritten`, `makeSpace`, `isInUse`, `aquireTemp`, `releaseTemp`,
  `load`, `store`, `release`, `clear`): they are only declared in `jitdspregpool.h`, and
  their bodies live in the pool's implementation file, outside this core. The
  guards record their calls as events, and the answers of `isInUse` and `aquireTemp`
  are parameters. Lock reference counting and eviction are therefore not modelled.
- `RegisterList::get`: it reads `m_used` at the position given by the identifier,
  which is neither a slot lookup nor bounded by `size()`. Nothing in the modelled code
  calls it; whether the out-of-line pool members do cannot be seen here.
- `RegisterList::isUsed(const T&)` for an invalid (reset) host register: the model's
  slots are `Option`s, and it assumes the host register asked about is a real one. Its
  likely caller, `isInUse`, is out of line.
- `RegisterList::used()`: it is the `used` field of the datatype.
- `Guards.TempAcquire`: calling `acquire` again on an already acquired guard is not
  shown to leak. The model assumes only the constructor calls `acquire`; the class
  declaration of `DSPRegTemp` in `jitregtracker.h`, which would show who else can, is
  outside this core.
- `Guards.Acquired`: `DSPRegTemp::acquired()` is defined in `jitregtracker.h`, outside
  this core. It is taken to mean "the held identifier is not `DspCount`", which is
  what `release` stores.
- `Guards.PushBeforeFunctionCallTrace`: C++ constructs members in the order the class
  declares them, and the declarations of `PushBeforeFunctionCall`, `PushXMMRegs` and
  `PushGPRegs` are not part of this model. The model assumes the XMM group before the
  general-purpose group, `xmm0`..`xmm5` in index order, and `r8`..`r11` in index order.
  Only the push order stated by this lemma and by `Guards.ChainTrace` depends on that
  assumption. Which registers are saved (`Guards.CallerSavedIffInUse`), and that the stack
  is restored, hold for any order.
- `Guards.BlockNoSentinel`: a `Block` release names the temporary it gives back, not the
  guard object. A second `release()` of a guard already released can be written, but
  it is traced as a release of a held temporary, as for `Guards.BlockBalanced` below.
  That is the one path on which the source hands the sentinel to `unlock` and
  `releaseTemp` (cpp:24-28), so the lemma says nothing about it;
  `Guards.SecondReleaseNamesSentinel` states what that path does for one guard.
- `Guards.BlockBalanced`: a second `release()` of a released guard is traced as a
  release of a held temporary. If no guard of that temporary is left to claim it, it
  stays in `Guards.Unbound` and the block is excluded. But `aquireTemp` may hand a later
  guard the same temporary. A second release of the earlier guard inside the later
  guard's scope is then read as the later guard's own release, and such a block is not
  excluded. The source would unlock and return the sentinel there, and the later guard's
  destructor would give the temporary back.
- `RegMask.Set` and `RegMask.Clear`: the 64-bit words are modelled as sets of bit
  positions, not as machine words. The enumeration fits in 64 bits, so no shift
  overflows.

=== FILE: dspregpool.dfy ===
/** The state of `JitDspRegPool` and its inline helpers: the lock and dirty masks, the
    repeat-mode flag and the repeat-mode `push` onto a list. The out-of-line operations
    (`get`, `makeSpace`, `releaseAll`, ...) are not part of this model. */
module DspRegPool {
  import opened DspRegs
  import opened Seqs
  import opened RegMask
  import RegisterLists

  /** `m_lockedGps`, `m_writtenDspRegs`, the general-purpose and XMM register lists,
      the free temporaries `m_availableTemps` and `m_repMode`. */
  datatype JitDspRegPool<G, X> = JitDspRegPool(
    lockedGps: Mask,
    writtenDspRegs: Mask,
    gpList: RegisterLists.RegisterList<G>,
    xmList: RegisterLists.RegisterList<X>,
    availableTemps: seq<DspReg>,
    repMode: bool)

  /** Both masks only carry bits of the enumeration. */
  predicate MasksConfined<G, X>(p: JitDspRegPool<G, X>) {
    Confined(p.lockedGps) && Confined(p.writtenDspRegs)
  }

  predicate IsWritten<G, X>(p: JitDspRegPool<G, X>, r: DspReg) {
    Test(p.writtenDspRegs, r)
  }

  predicate IsLocked<G, X>(p: JitDspRegPool<G, X>, r: DspReg) {
    Test(p.lockedGps, r)
  }

  /** `setWritten`: `r` becomes dirty; no other register's dirty bit and nothing but the
      dirty mask changes. */
  function SetWritten<G, X>(p: JitDspRegPool<G, X>, r: DspReg): (q: JitDspRegPool<G, X>)
    ensures IsWritten(q, r)
    ensures forall s: DspReg :: s != r ==> IsWritten(q, s) == IsWritten(p, s)
    ensures q.(writtenDspRegs := p.writtenDspRegs) == p
    ensures MasksConfined(p) ==> MasksConfined(q)
  {
    p.(writtenDspRegs := RegMask.Set(p.writtenDspRegs, r))
  }

  /** `clearWritten`: `r` becomes clean; no other register's dirty bit and nothing but
      the dirty mask changes. */
  function ClearWritten<G, X>(p: JitDspRegPool<G, X>, r: DspReg): (q: JitDspRegPool<G, X>)
    ensures !IsWritten(q, r)
    ensures forall s: DspReg :: s != r ==> IsWritten(q, s) == IsWritten(p, s)
    ensures q.(writtenDspRegs := p.writtenDspRegs) == p
    ensures MasksConfined(p) ==> MasksConfined(q)
  {
    p.(writtenDspRegs := RegMask.Clear(p.writtenDspRegs, r))
  }

  /** `setLocked`: `r` becomes locked; no other register's lock bit and nothing but the
      lock mask changes. */
  function SetLocked<G, X>(p: JitDspRegPool<G, X>, r: DspReg): (q: JitDspRegPool<G, X>)
    ensures IsLocked(q, r)
    ensures forall s: DspReg :: s != r ==> IsLocked(q, s) == IsLocked(p, s)
    ensures q.(lockedGps := p.lockedGps) == p
    ensures MasksConfined(p) ==> MasksConfined(q)
  {
    p.(lockedGps := RegMask.Set(p.lockedGps, r))
  }

  /** `clearLocked`: `r` becomes unlocked; no other register's lock bit and nothing but
      the lock mask changes. */
  function ClearLocked<G, X>(p: JitDspRegPool<G, X>, r: DspReg): (q: JitDspRegPool<G, X>)
    ensures !IsLocked(q, r)
    ensures forall s: DspReg :: s != r ==> IsLocked(q, s) == IsLocked(p, s)
    ensures q.(lockedGps := p.lockedGps) == p
    ensures MasksConfined(p) ==> MasksConfined(q)
  {
    p.(lockedGps := RegMask.Clear(p.lockedGps, r))
  }

  /** `isWritten` and `isLocked` read separate words: the lock helpers never change a
      dirty flag and the dirty helpers never change a lock flag. */
  lemma FlagsIndependent<G, X>(p: JitDspRegPool<G, X>, r: DspReg, s: DspReg)
    ensures IsWritten(SetLocked(p, r), s) == IsWritten(p, s)
    ensures IsWritten(ClearLocked(p, r), s) == IsWritten(p, s)
    ensures IsLocked(SetWritten(p, r), s) == IsLocked(p, s)
    ensures IsLocked(ClearWritten(p, r), s) == IsLocked(p, s)
  {
  }

  /** `hasWrittenRegs`: the dirty word is non-zero. */
  predicate HasWrittenRegs<G, X>(p: JitDspRegPool<G, X>) {
    p.writtenDspRegs != Zero
  }

  /** `hasWrittenRegs()` reports exactly whether some register is dirty. */
  lemma HasWrittenRegsIffSomeWritten<G, X>(p: JitDspRegPool<G, X>)
    requires MasksConfined(p)
    ensures HasWrittenRegs(p) <==> exists r: DspReg :: IsWritten(p, r)
  {
    NonZeroIffSomeSet(p.writtenDspRegs);
    if HasWrittenRegs(p) {
      var r: DspReg :| Test(p.writtenDspRegs, r);
      assert IsWritten(p, r);
    }
    if exists r: DspReg :: IsWritten(p, r) {
      var r: DspReg :| IsWritten(p, r);
      assert Test(p.writtenDspRegs, r);
    }
  }

  /** Marking a register dirty makes `hasWrittenRegs()` true; clearing the only dirty
      register makes it false again. */
  lemma WrittenRoundTrip<G, X>(p: JitDspRegPool<G, X>, r: DspReg)
    requires MasksConfined(p)
    requires forall s: DspReg :: !IsWritten(p, s)
    ensures HasWrittenRegs(SetWritten(p, r))
    ensures !HasWrittenRegs(ClearWritten(SetWritten(p, r), r))
  {
    var q := SetWritten(p, r);
    HasWrittenRegsIffSomeWritten(q);
    var q' := ClearWritten(q, r);
    HasWrittenRegsIffSomeWritten(q');
  }

  /** `setRepMode`: only the ordering bias changes. */
  function SetRepMode<G, X>(p: JitDspRegPool<G, X>, repMode: bool): (q: JitDspRegPool<G, X>)
    ensures q.repMode == repMode
    ensures q.(repMode := p.repMode) == p
  {
    p.(repMode := repMode)
  }

  /** The pool's `push`: in repeat mode the element goes to the front of the list,
      otherwise to the back; either way the list gains exactly that one element. */
  function Push<G, X, T>(p: JitDspRegPool<G, X>, dst: seq<T>, src: T): (r: seq<T>)
    ensures multiset(r) == multiset(dst) + multiset{src}
    ensures p.repMode ==> r == [src] + dst
    ensures !p.repMode ==> r == dst + [src]
  {
    Insert(dst, src, p.repMode)
  }
}

=== FILE: dspregs.dfy ===
/** The architectural register identifiers of the emulated DSP56300 (the `DspReg`
    enumeration of `JitDspRegPool`). An identifier's ordinal is also its bit index
    in the pool's 64-bit lock and dirty masks. */
module DspRegs {

  /** Number of identifiers. The value itself is used as the "no register" sentinel. */
  const DspCount: int := 40

  /** Width of the pool's lock and dirty masks (`uint64_t`). */
  const MaskWidth: int := 64

  /** An identifier, by ordinal. */
  type DspReg = r: int | 0 <= r < DspCount

  // Address registers R0..R7, offset registers N0..N7, modifier registers M0..M7.
  function DspR(i: nat): DspReg requires i < 8 { i }
  function DspN(i: nat): DspReg requires i < 8 { 8 + i }
  function DspM(i: nat): DspReg requires i < 8 { 16 + i }

  const DspA: DspReg := 24
  const DspB: DspReg := 25
  const DspX: DspReg := 26
  const DspY: DspReg := 27
  const DspExtMem: DspReg := 28
  const DspSR: DspReg := 29
  const DspLC: DspReg := 30
  const DspLA: DspReg := 31

  /** The anonymous temporary slots TempA..TempH. */
  function Temp(i: nat): DspReg requires i < 8 { 32 + i }
  const TempA: DspReg := Temp(0)
  const LastTemp: DspReg := Temp(7)

  predicate IsTemp(r: int) { TempA <= r <= LastTemp }

  /** The enumeration fits the masks: every ordinal is a valid shift amount for a
      64-bit word, and the temporaries are the last eight identifiers. */
  lemma EnumerationLayout()
    ensures DspCount <= MaskWidth
    ensures LastTemp == DspCount - 1
    ensures forall r: DspReg :: IsTemp(r) <==> r >= DspCount - 8
  {
  }
}

=== FILE: guards.dfy ===
/** The RAII guards of the register tracker, as state machines that emit the calls they
    make: `DSPReg` (lock for the guard's lifetime), `DSPRegTemp` (a temporary identifier
    with a sentinel for "released"), and `PushGP`/`PushXMM` (save a host register across
    an external call only when the pool is using it). The pool's `get`, `lock`,
    `unlock`, `aquireTemp`, `releaseTemp` and `isInUse` are not part of this model:
    their calls are recorded as events, and the answers of `aquireTemp` and `isInUse`
    are parameters. */
module Guards {
  import opened DspRegs
  import opened Seqs

  /** Host registers a preservation guard can save: general purpose (`r8`...) and XMM. */
  datatype HostReg = Gp(index: nat) | Xmm(index: nat)

  /** One call made by a guard: on the DSP register pool, or a push/pop on the host stack. */
  datatype Event =
    | Get(reg: int, read: bool, write: bool)
    | Lock(reg: int)
    | Unlock(reg: int)
    | AquireTemp(reg: int)
    | ReleaseTemp(reg: int)
    | Push(host: HostReg)
    | Pop(host: HostReg)

  /** What a call takes and a later call gives back: a lock on an identifier, a
      temporary identifier, or a slot on the host stack. */
  datatype Claim = LockOn(id: int) | TempOf(id: int) | StackSlot(host: HostReg)

  /** The claim a call takes (`taking`) or gives back (`!taking`), if any. */
  function ClaimOf(e: Event, taking: bool): seq<Claim> {
    match e
    case Get(_, _, _) => []
    case Lock(x) => if taking then [LockOn(x)] else []
    case Unlock(x) => if taking then [] else [LockOn(x)]
    case AquireTemp(x) => if taking then [TempOf(x)] else []
    case ReleaseTemp(x) => if taking then [] else [TempOf(x)]
    case Push(h) => if taking then [StackSlot(h)] else []
    case Pop(h) => if taking then [] else [StackSlot(h)]
  }

  /** The claims a sequence of calls takes or gives back, in call order. */
  function Claims(t: seq<Event>, taking: bool): seq<Claim>
    decreases |t|
  {
    if |t| == 0 then [] else ClaimOf(t[0], taking) + Claims(t[1..], taking)
  }

  /** One step of `Claims`, both ways. */
  lemma ClaimsUnfold(t: seq<Event>)
    requires |t| > 0
    ensures Claims(t, true) == ClaimOf(t[0], true) + Claims(t[1..], true)
    ensures Claims(t, false) == ClaimOf(t[0], false) + Claims(t[1..], false)
  {
  }

  lemma {:induction false} ClaimsConcat(a: seq<Event>, b: seq<Event>, taking: bool)
    ensures Claims(a + b, taking) == Claims(a, taking) + Claims(b, taking)
    decreases |a|
  {
    if |a| > 0 {
      assert (a + b)[0] == a[0] && (a + b)[1..] == a[1..] + b;
      ClaimsConcat(a[1..], b, taking);
    } else {
      assert a + b == b;
    }
  }

  /** Every claim taken is given back as often as it is taken: no lock, temporary or
      stack slot is leaked or released twice. */
  predicate Balanced(t: seq<Event>) {
    Taken(t) == Given(t)
  }

  /** A pool call that names the sentinel `DspCount`; stack operations name no identifier. */
  predicate NamesSentinel(e: Event) {
    !(e.Push? || e.Pop?) && e.reg == DspCount
  }

  predicate NoSentinel(t: seq<Event>) {
    forall e | e in t :: !NamesSentinel(e)
  }

  /** Whether a trace only touches the host stack, making no call into the pool. */
  predicate StackOnly(t: seq<Event>) {
    forall e | e in t :: e.Push? || e.Pop?
  }

  // DSPReg

  /** `DSPReg`: the identifier it holds locked. */
  datatype DSPReg = DSPReg(dspReg: DspReg)

  /** The constructor gets the mapping, then locks the identifier. */
  function DSPRegConstruct(r: DspReg, read: bool, write: bool): (res: (DSPReg, seq<Event>))
    ensures res.0.dspReg == r
  {
    (DSPReg(r), [Get(r, read, write), Lock(r)])
  }

  /** The destructor unlocks the identifier the guard holds. */
  function DSPRegDestroy(g: DSPReg): seq<Event> {
    [Unlock(g.dspReg)]
  }

  /** A `DSPReg` guard's lifetime: it first maps the identifier, the only claim it takes
      is the lock on that identifier, and the destructor gives back exactly that lock. */
  lemma DSPRegLifetime(r: DspReg, read: bool, write: bool)
    ensures var (g, enter) := DSPRegConstruct(r, read, write);
      var t := enter + DSPRegDestroy(g);
      && t[0] == Get(r, read, write)
      && Claims(t, true) == [LockOn(r)] && Claims(t, false) == [LockOn(r)]
      && NoSentinel(t)
  {
    var t := [Get(r, read, write), Lock(r), Unlock(r)];
    assert DSPRegConstruct(r, read, write).1 + DSPRegDestroy(DSPReg(r)) == t;
    ClaimsUnfold(t);
    ClaimsUnfold(t[1..]);
    ClaimsUnfold(t[2..]);
    assert t[3..] == [];
  }

  // DSPRegTemp

  /** `DSPRegTemp`: the temporary identifier held, or `DspCount` once released. */
  datatype DSPRegTemp = DSPRegTemp(dspReg: int)

  /** `acquired()`: the held identifier is not the sentinel. */
  predicate Acquired(g: DSPRegTemp) {
    g.dspReg != DspCount
  }

  /** `acquire`: take a temporary (the answer of `aquireTemp` is `temp`), map it with
      neither read nor write, then lock it. */
  function TempAcquire(g: DSPRegTemp, temp: DspReg): (res: (DSPRegTemp, seq<Event>))
    ensures Acquired(res.0) && res.0.dspReg == temp
  {
    (DSPRegTemp(temp), [AquireTemp(temp), Get(temp, false, false), Lock(temp)])
  }

  /** `release`: unlock, give the temporary back, and store the sentinel. */
  function TempRelease(g: DSPRegTemp): (res: (DSPRegTemp, seq<Event>))
    ensures !Acquired(res.0)
  {
    (DSPRegTemp(DspCount), [Unlock(g.dspReg), ReleaseTemp(g.dspReg)])
  }

  /** The constructor acquires. */
  function TempConstruct(temp: DspReg): (res: (DSPRegTemp, seq<Event>))
    ensures Acquired(res.0) && res.0.dspReg == temp
  {
    TempAcquire(DSPRegTemp(DspCount), temp)
  }

  /** The destructor releases only if the guard is still acquired. */
  function TempDestroy(g: DSPRegTemp): (t: seq<Event>)
    ensures Acquired(g) <==> t != []
    ensures NoSentinel(t)
  {
    if Acquired(g) then TempRelease(g).1 else []
  }

  /** The events of one temporary guard's lifetime (no body). */
  function TempTrace(temp: DspReg, releaseEarly: bool): seq<Event> {
    var (g, enter) := TempConstruct(temp);
    if releaseEarly then
      var (g', rel) := TempRelease(g);
      enter + rel + TempDestroy(g')
    else
      enter + TempDestroy(g)
  }

  /** Whether or not `release` is called before the destructor, a temporary guard makes
      the same five calls: take, map, lock, unlock, give back. */
  lemma TempTraceCalls(temp: DspReg, releaseEarly: bool)
    ensures TempTrace(temp, releaseEarly) ==
      [AquireTemp(temp), Get(temp, false, false), Lock(temp), Unlock(temp), ReleaseTemp(temp)]
  {
    var (g, enter) := TempConstruct(temp);
    var (g', rel) := TempRelease(g);
    if releaseEarly {
      assert TempDestroy(g') == [];
    } else {
      assert TempDestroy(g) == rel;
    }
  }

  /** A temporary guard's lifetime, with or without an explicit `release` before the
      destructor: it takes the temporary and then its lock, gives them back in the
      reverse order, exactly once each, and never hands the sentinel to the pool. */
  lemma TempLifetime(temp: DspReg, releaseEarly: bool)
    ensures var t := TempTrace(temp, releaseEarly);
      && Claims(t, true) == [TempOf(temp), LockOn(temp)]
      && Claims(t, false) == [LockOn(temp), TempOf(temp)]
      && NoSentinel(t)
  {
    var enter := [AquireTemp(temp), Get(temp, false, false), Lock(temp)];
    var exit := [Unlock(temp), ReleaseTemp(temp)];
    assert TempTrace(temp, releaseEarly) == enter + exit by {
      TempTraceCalls(temp, releaseEarly);
    }
    ClaimsUnfold(enter);
    ClaimsUnfold(enter[1..]);
    ClaimsUnfold(enter[2..]);
    assert enter[3..] == [];
    ClaimsUnfold(exit);
    ClaimsUnfold(exit[1..]);
    assert exit[2..] == [];
    ClaimsConcat(enter, exit, true);
    ClaimsConcat(enter, exit, false);
  }

  /** Without the `acquired()` test a second release would hand the sentinel to the pool:
      this is what the destructor's check prevents. */
  lemma SecondReleaseNamesSentinel(temp: DspReg)
    ensures var g := TempRelease(TempConstruct(temp).0).0;
      !NoSentinel(TempRelease(g).1) && TempDestroy(g) == []
  {
    var g := TempRelease(TempConstruct(temp).0).0;
    assert g.dspReg == DspCount;
    assert NamesSentinel(TempRelease(g).1[0]);
  }

  // PushGP and PushXMM

  /** `PushGP`: the saved register and whether the constructor pushed it. */
  datatype PushGP = PushGP(reg: HostReg, pushed: bool)

  /** The constructor pushes iff `!onlyIfUsedInPool || isInUse(reg)`; `inUse` is the
      pool's answer. */
  function PushGPConstruct(reg: HostReg, onlyIfUsedInPool: bool, inUse: bool): (res: (PushGP, seq<Event>))
    ensures res.0.reg == reg
    ensures res.0.pushed <==> !onlyIfUsedInPool || inUse
  {
    var pushed := !onlyIfUsedInPool || inUse;
    (PushGP(reg, pushed), if pushed then [Push(reg)] else [])
  }

  /** The destructor pops iff the constructor pushed. */
  function PushGPDestroy(g: PushGP): seq<Event> {
    if g.pushed then [Pop(g.reg)] else []
  }

  /** A `PushGP` guard's lifetime: the register takes a stack slot and gets it back
      exactly when the push is unconditional or the pool uses the register, the stack
      is left as it was, and the pool sees no call. */
  lemma PushGPLifetime(reg: HostReg, onlyIfUsedInPool: bool, inUse: bool, stack: seq<HostReg>)
    ensures var (g, enter) := PushGPConstruct(reg, onlyIfUsedInPool, inUse);
      var t := enter + PushGPDestroy(g);
      && Claims(t, true) == Claims(t, false) == (if !onlyIfUsedInPool || inUse then [StackSlot(reg)] else [])
      && Replay(stack, t) == Some(stack)
      && NoSentinel(t)
      && StackOnly(t)
  {
    var (g, enter) := PushGPConstruct(reg, onlyIfUsedInPool, inUse);
    var t := enter + PushGPDestroy(g);
    if g.pushed {
      SaveRestore(stack, reg, t);
    } else {
      assert t == [];
    }
  }

  /** A push immediately undone by the matching pop. */
  lemma SaveRestore(stack: seq<HostReg>, h: HostReg, t: seq<Event>)
    requires t == [Push(h), Pop(h)]
    ensures Claims(t, true) == Claims(t, false) == [StackSlot(h)]
    ensures Replay(stack, t) == Some(stack)
  {
    ClaimsUnfold(t);
    ClaimsUnfold(t[1..]);
    assert t[2..] == [];
    assert (stack + [h])[..|stack|] == stack;
    assert Replay(stack, t) == Replay(stack + [h], t[1..]);
    assert Replay(stack + [h], t[1..]) == Replay(stack, t[2..]);
  }

  /** `PushXMM`: the XMM index and whether the pool had it loaded at construction. */
  datatype PushXMM = PushXMM(xmmIndex: nat, isLoaded: bool)

  /** The constructor pushes iff `isInUse(xmm)`; `inUse` is the pool's answer. */
  function PushXMMConstruct(xmmIndex: nat, inUse: bool): (res: (PushXMM, seq<Event>))
    ensures res.0.xmmIndex == xmmIndex
    ensures res.0.isLoaded == inUse
  {
    (PushXMM(xmmIndex, inUse), if inUse then [Push(Xmm(xmmIndex))] else [])
  }

  /** The destructor pops iff the constructor pushed. */
  function PushXMMDestroy(g: PushXMM): seq<Event> {
    if g.isLoaded then [Pop(Xmm(g.xmmIndex))] else []
  }

  /** A `PushXMM` guard's lifetime: the register takes a stack slot and gets it back
      exactly when the pool uses it, the stack is left as it was, and the pool sees no
      call. */
  lemma PushXMMLifetime(xmmIndex: nat, inUse: bool, stack: seq<HostReg>)
    ensures var (g, enter) := PushXMMConstruct(xmmIndex, inUse);
      var t := enter + PushXMMDestroy(g);
      && Claims(t, true) == Claims(t, false) == (if inUse then [StackSlot(Xmm(xmmIndex))] else [])
      && Replay(stack, t) == Some(stack)
      && NoSentinel(t)
      && StackOnly(t)
  {
    var (g, enter) := PushXMMConstruct(xmmIndex, inUse);
    var t := enter + PushXMMDestroy(g);
    if inUse {
      SaveRestore(stack, Xmm(xmmIndex), t);
    } else {
      assert t == [];
    }
  }

  // Nested guard scopes

  /** A guard and the pool answers its constructor receives. */
  datatype Guard =
    | RegGuard(reg: DspReg, read: bool, write: bool)
    | TempGuard(temp: DspReg)
    | GpGuard(gp: HostReg, onlyIfUsedInPool: bool, gpInUse: bool)
    | XmmGuard(xmmIndex: nat, xmmInUse: bool)

  /** Generated code as a tree of scopes: a plain `get` outside any guard, a guard whose
      lifetime spans a body, two blocks one after the other, or an explicit `release()`
      of the enclosing temporary guard that holds `temp`, wherever it occurs in that
      guard's scope. A release names the temporary it gives back, not the guard object,
      so every release is traced as one of a temporary still held. */
  datatype Block =
    | Access(dspReg: DspReg, read: bool, write: bool)
    | Guarded(guard: Guard, body: Block)
    | Then(first: Block, second: Block)
    | ExplicitRelease(temp: DspReg)

  /** The events a guard emits when it is constructed. */
  function Enter(g: Guard): seq<Event> {
    match g
    case RegGuard(r, read, write) => DSPRegConstruct(r, read, write).1
    case TempGuard(temp) => TempConstruct(temp).1
    case GpGuard(h, only, inUse) => PushGPConstruct(h, only, inUse).1
    case XmmGuard(i, inUse) => PushXMMConstruct(i, inUse).1
  }

  /** The events a guard's destructor emits when nothing released it earlier. */
  function Exit(g: Guard): seq<Event> {
    match g
    case RegGuard(r, read, write) => DSPRegDestroy(DSPRegConstruct(r, read, write).0)
    case TempGuard(temp) => TempDestroy(TempConstruct(temp).0)
    case GpGuard(h, only, inUse) => PushGPDestroy(PushGPConstruct(h, only, inUse).0)
    case XmmGuard(i, inUse) => PushXMMDestroy(PushXMMConstruct(i, inUse).0)
  }

  /** The temporaries explicitly released in `b` whose guard is not opened in `b`, in
      order: a temporary guard claims one release of its own temporary from its body. */
  function Unbound(b: Block): seq<DspReg> {
    match b
    case Access(_, _, _) => []
    case ExplicitRelease(temp) => [temp]
    case Guarded(g, body) => if g.TempGuard? then RemoveFirst(Unbound(body), g.temp) else Unbound(body)
    case Then(first, second) => Unbound(first) + Unbound(second)
  }

  /** Whether the body of guard `g` released it explicitly. */
  predicate ReleasedIn(g: Guard, body: Block) {
    g.TempGuard? && g.temp in Unbound(body)
  }

  /** The events a guard emits when its scope closes: the destructor, which finds a
      temporary guard that its body released no longer acquired. */
  function Leave(g: Guard, body: Block): (t: seq<Event>)
    ensures ReleasedIn(g, body) ==> t == []
    ensures !ReleasedIn(g, body) ==> t == Exit(g)
  {
    if ReleasedIn(g, body) then TempDestroy(TempRelease(TempConstruct(g.temp).0).0) else Exit(g)
  }

  /** Every call a block makes, in order: guards are destroyed in reverse order of
      construction because each one's lifetime encloses its body. */
  function Trace(b: Block): seq<Event> {
    match b
    case Access(r, read, write) => [Get(r, read, write)]
    case ExplicitRelease(temp) => TempRelease(DSPRegTemp(temp)).1
    case Guarded(g, body) => Enter(g) + Trace(body) + Leave(g, body)
    case Then(first, second) => Trace(first) + Trace(second)
  }

  /** Runs the pushes and pops of a trace on a host stack (last element on top). A pop
      that would restore a register from a slot another register was saved into fails. */
  function Replay(stack: seq<HostReg>, t: seq<Event>): Option<seq<HostReg>>
    decreases |t|
  {
    if |t| == 0 then Some(stack)
    else match t[0]
      case Push(h) => Replay(stack + [h], t[1..])
      case Pop(h) =>
        if |stack| > 0 && stack[|stack| - 1] == h then Replay(stack[..|stack| - 1], t[1..]) else None
      case _ => Replay(stack, t[1..])
  }

  lemma {:induction false} ReplayConcat(stack: seq<HostReg>, a: seq<Event>, b: seq<Event>)
    ensures Replay(stack, a + b) ==
      match Replay(stack, a)
      case None => None
      case Some(s) => Replay(s, b)
    decreases |a|
  {
    if |a| > 0 {
      assert (a + b)[0] == a[0] && (a + b)[1..] == a[1..] + b;
      match a[0]
      case Push(h) => ReplayConcat(stack + [h], a[1..], b);
      case Pop(h) =>
        if |stack| > 0 && stack[|stack| - 1] == h {
          ReplayConcat(stack[..|stack| - 1], a[1..], b);
        }
      case _ => ReplayConcat(stack, a[1..], b);
    } else {
      assert a + b == b;
    }
  }

  /** Calls on the pool only, no stack operation. */
  predicate PoolOnly(t: seq<Event>) {
    forall e | e in t :: !(e.Push? || e.Pop?)
  }

  lemma {:induction false} ReplayPoolOnly(stack: seq<HostReg>, t: seq<Event>)
    requires PoolOnly(t)
    ensures Replay(stack, t) == Some(stack)
    decreases |t|
  {
    if |t| > 0 {
      assert t[0] in t;
      ReplayPoolOnly(stack, t[1..]);
    }
  }

  /** A temporary guard's own calls. */
  lemma TempGuardEvents(temp: DspReg)
    ensures Enter(TempGuard(temp)) == [AquireTemp(temp), Get(temp, false, false), Lock(temp)]
    ensures Exit(TempGuard(temp)) == [Unlock(temp), ReleaseTemp(temp)]
  {
  }

  /** The host registers a guard's constructor saved, in push order. */
  function Saved(g: Guard): seq<HostReg> {
    match g
    case GpGuard(h, only, inUse) => if !only || inUse then [h] else []
    case XmmGuard(i, inUse) => if inUse then [Xmm(i)] else []
    case _ => []
  }

  /** A guard's constructor pushes exactly its saved registers; its destructor pops them
      back off the same stack. */
  lemma GuardStack(g: Guard, stack: seq<HostReg>)
    ensures Replay(stack, Enter(g)) == Some(stack + Saved(g))
    ensures Replay(stack + Saved(g), Exit(g)) == Some(stack)
  {
    match g
    case GpGuard(h, only, inUse) => SaveStack(stack, h, !only || inUse);
    case XmmGuard(i, inUse) => SaveStack(stack, Xmm(i), inUse);
    case RegGuard(r, read, write) =>
      assert stack + Saved(g) == stack;
      ReplayPoolOnly(stack, Enter(g));
      ReplayPoolOnly(stack, Exit(g));
    case TempGuard(temp) =>
      assert stack + Saved(g) == stack;
      TempGuardEvents(temp);
      ReplayPoolOnly(stack, Enter(g));
      ReplayPoolOnly(stack, Exit(g));
  }

  /** A conditional push and the matching conditional pop. */
  lemma SaveStack(stack: seq<HostReg>, h: HostReg, save: bool)
    ensures Replay(stack, if save then [Push(h)] else []) == Some(stack + if save then [h] else [])
    ensures Replay(stack + (if save then [h] else []), if save then [Pop(h)] else []) == Some(stack)
  {
    if save {
      assert Replay(stack + [h], []) == Some(stack + [h]);
      assert (stack + [h])[..|stack + [h]| - 1] == stack;
    } else {
      assert stack + [] == stack;
    }
  }

  /** The claims a sequence of calls takes, as a multiset. */
  function Taken(t: seq<Event>): multiset<Claim> {
    multiset(Claims(t, true))
  }

  /** The claims a sequence of calls gives back, as a multiset. */
  function Given(t: seq<Event>): multiset<Claim> {
    multiset(Claims(t, false))
  }

  /** What explicit releases of the temporaries `temps` give back: each temporary and
      its lock. */
  function Debt(temps: seq<DspReg>): multiset<Claim>
    decreases |temps|
  {
    if |temps| == 0 then multiset{} else multiset{LockOn(temps[0]), TempOf(temps[0])} + Debt(temps[1..])
  }

  lemma {:induction false} DebtConcat(a: seq<DspReg>, b: seq<DspReg>)
    ensures Debt(a + b) == Debt(a) + Debt(b)
    decreases |a|
  {
    if |a| > 0 {
      assert (a + b)[0] == a[0] && (a + b)[1..] == a[1..] + b;
      DebtConcat(a[1..], b);
    } else {
      assert a + b == b;
    }
  }

  /** A guard that claims one release of its temporary takes that release's debt. */
  lemma {:induction false} DebtRemoveFirst(temps: seq<DspReg>, temp: DspReg)
    requires temp in temps
    ensures Debt(temps) == Debt(RemoveFirst(temps, temp)) + multiset{LockOn(temp), TempOf(temp)}
    decreases |temps|
  {
    if temps[0] != temp {
      var rest := RemoveFirst(temps[1..], temp);
      DebtRemoveFirst(temps[1..], temp);
      assert ([temps[0]] + rest)[0] == temps[0] && ([temps[0]] + rest)[1..] == rest;
    }
  }

  /** Calls that owe `debt` placed inside balanced calls still owe exactly `debt`. */
  lemma Splice(a: seq<Event>, b: seq<Event>, c: seq<Event>, debt: multiset<Claim>)
    requires Balanced(a + c) && Taken(b) + debt == Given(b)
    ensures Taken(a + b + c) + debt == Given(a + b + c)
  {
    ClaimsConcat(a, c, true);
    ClaimsConcat(a, c, false);
    ClaimsConcat(a, b, true);
    ClaimsConcat(a, b, false);
    ClaimsConcat(a + b, c, true);
    ClaimsConcat(a + b, c, false);
    var a1, b1, c1 := Taken(a), Taken(b), Taken(c);
    var a2, b2, c2 := Given(a), Given(b), Given(c);
    assert Taken(a + b + c) == a1 + b1 + c1;
    assert Given(a + b + c) == a2 + b2 + c2;
    assert a1 + c1 == a2 + c2;
    assert a1 + b1 + c1 + debt == (a1 + c1) + (b1 + debt);
    assert a2 + b2 + c2 == (a2 + c2) + b2;
  }

  /** Each guard's own entry and exit calls are balanced and never name the sentinel. */
  lemma GuardCallsBalanced(g: Guard)
    ensures Balanced(Enter(g) + Exit(g))
    ensures NoSentinel(Enter(g) + Exit(g))
  {
    match g
    case RegGuard(r, read, write) => RegGuardCalls(r, read, write);
    case TempGuard(temp) => TempGuardCalls(temp);
    case GpGuard(h, only, inUse) => GpGuardCalls(h, only, inUse);
    case XmmGuard(i, inUse) => XmmGuardCalls(i, inUse);
  }

  lemma RegGuardCalls(r: DspReg, read: bool, write: bool)
    ensures var g := RegGuard(r, read, write);
      Balanced(Enter(g) + Exit(g)) && NoSentinel(Enter(g) + Exit(g))
  {
    DSPRegLifetime(r, read, write);
  }

  lemma TempGuardCalls(temp: DspReg)
    ensures var g := TempGuard(temp);
      Balanced(Enter(g) + Exit(g)) && NoSentinel(Enter(g) + Exit(g))
  {
    var g := TempGuard(temp);
    assert Enter(g) + Exit(g) == TempTrace(temp, false) by {
      TempGuardEvents(temp);
      TempTraceCalls(temp, false);
    }
    TempLifetime(temp, false);
    assert multiset([TempOf(temp), LockOn(temp)]) == multiset([LockOn(temp), TempOf(temp)]);
  }

  lemma GpGuardCalls(h: HostReg, only: bool, inUse: bool)
    ensures var g := GpGuard(h, only, inUse);
      Balanced(Enter(g) + Exit(g)) && NoSentinel(Enter(g) + Exit(g))
  {
    PushGPLifetime(h, only, inUse, []);
  }

  lemma XmmGuardCalls(i: nat, inUse: bool)
    ensures var g := XmmGuard(i, inUse);
      Balanced(Enter(g) + Exit(g)) && NoSentinel(Enter(g) + Exit(g))
  {
    PushXMMLifetime(i, inUse, []);
  }

  /** A temporary guard's constructor takes the temporary and its lock and gives back
      nothing. */
  lemma TempEnterClaims(temp: DspReg)
    ensures Taken(Enter(TempGuard(temp))) == multiset{LockOn(temp), TempOf(temp)}
    ensures Given(Enter(TempGuard(temp))) == multiset{}
  {
    var enter := [AquireTemp(temp), Get(temp, false, false), Lock(temp)];
    assert Enter(TempGuard(temp)) == enter;
    assert Claims(enter, true) == [TempOf(temp), LockOn(temp)] && Claims(enter, false) == [] by {
      ClaimsUnfold(enter);
      ClaimsUnfold(enter[1..]);
      ClaimsUnfold(enter[2..]);
      assert enter[3..] == [];
    }
  }

  /** An explicit release gives back the temporary and its lock and takes nothing. */
  lemma ReleaseClaims(temp: DspReg)
    ensures Taken(Trace(ExplicitRelease(temp))) == multiset{}
    ensures Given(Trace(ExplicitRelease(temp))) == multiset{LockOn(temp), TempOf(temp)}
  {
    var release := [Unlock(temp), ReleaseTemp(temp)];
    assert Trace(ExplicitRelease(temp)) == release;
    assert Claims(release, true) == [] && Claims(release, false) == [LockOn(temp), TempOf(temp)] by {
      ClaimsUnfold(release);
      ClaimsUnfold(release[1..]);
      assert release[2..] == [];
    }
  }

  /** A temporary guard whose body released it: the body's debt for that release is
      paid by what the constructor took. */
  lemma ReleasedGuardClaims(g: Guard, body: Block)
    requires ReleasedIn(g, body)
    requires Taken(Trace(body)) + Debt(Unbound(body)) == Given(Trace(body))
    ensures Taken(Trace(Guarded(g, body))) + Debt(Unbound(Guarded(g, body))) == Given(Trace(Guarded(g, body)))
  {
    var enter := Enter(g);
    assert Trace(Guarded(g, body)) == enter + Trace(body) + [];
    assert enter + Trace(body) + [] == enter + Trace(body);
    ClaimsConcat(enter, Trace(body), true);
    ClaimsConcat(enter, Trace(body), false);
    TempEnterClaims(g.temp);
    DebtRemoveFirst(Unbound(body), g.temp);
  }

  /** For any nesting of guards, what a block takes plus what its unclaimed explicit
      releases give back is exactly what it gives back. */
  lemma {:induction false} BlockClaims(b: Block)
    ensures Taken(Trace(b)) + Debt(Unbound(b)) == Given(Trace(b))
    decreases b
  {
    match b
    case Access(r, read, write) =>
      assert Trace(b) == [Get(r, read, write)];
      ClaimsUnfold(Trace(b));
    case ExplicitRelease(temp) =>
      ReleaseClaims(temp);
      assert Unbound(b)[1..] == [];
    case Guarded(g, body) =>
      BlockClaims(body);
      if ReleasedIn(g, body) {
        ReleasedGuardClaims(g, body);
      } else {
        HeldGuardClaims(g, body);
      }
    case Then(first, second) =>
      BlockClaims(first);
      BlockClaims(second);
      ThenClaims(first, second);
  }

  /** A guard still held when its scope closes pays for itself: the body's debt passes
      through unchanged. */
  lemma HeldGuardClaims(g: Guard, body: Block)
    requires !ReleasedIn(g, body)
    requires Taken(Trace(body)) + Debt(Unbound(body)) == Given(Trace(body))
    ensures Taken(Trace(Guarded(g, body))) + Debt(Unbound(Guarded(g, body))) == Given(Trace(Guarded(g, body)))
  {
    assert Unbound(Guarded(g, body)) == Unbound(body);
    assert Trace(Guarded(g, body)) == Enter(g) + Trace(body) + Exit(g);
    GuardCallsBalanced(g);
    Splice(Enter(g), Trace(body), Exit(g), Debt(Unbound(body)));
  }

  lemma SwapMiddle(a: multiset<Claim>, b: multiset<Claim>, c: multiset<Claim>, d: multiset<Claim>)
    ensures a + b + (c + d) == (a + c) + (b + d)
  {
  }

  /** Two blocks in sequence owe what each owes. */
  lemma ThenClaims(first: Block, second: Block)
    requires Taken(Trace(first)) + Debt(Unbound(first)) == Given(Trace(first))
    requires Taken(Trace(second)) + Debt(Unbound(second)) == Given(Trace(second))
    ensures Taken(Trace(Then(first, second))) + Debt(Unbound(Then(first, second))) == Given(Trace(Then(first, second)))
  {
    var t1, t2 := Taken(Trace(first)), Taken(Trace(second));
    var g1, g2 := Given(Trace(first)), Given(Trace(second));
    var d1, d2 := Debt(Unbound(first)), Debt(Unbound(second));
    assert Taken(Trace(Then(first, second))) == t1 + t2 by {
      ClaimsConcat(Trace(first), Trace(second), true);
    }
    assert Given(Trace(Then(first, second))) == g1 + g2 by {
      ClaimsConcat(Trace(first), Trace(second), false);
    }
    assert Debt(Unbound(Then(first, second))) == d1 + d2 by {
      DebtConcat(Unbound(first), Unbound(second));
    }
    SwapMiddle(t1, t2, d1, d2);
  }

  /** For any nesting of guards in which every explicit release is of a guard opened in
      the block, once, every lock, temporary and stack slot taken is given back exactly
      as often as it is taken. */
  lemma BlockBalanced(b: Block)
    requires Unbound(b) == []
    ensures Balanced(Trace(b))
  {
    BlockClaims(b);
  }

  /** For any nesting of guards and explicit releases of held temporaries, no call hands
      the sentinel to the pool. */
  lemma {:induction false} BlockNoSentinel(b: Block)
    ensures NoSentinel(Trace(b))
    decreases b
  {
    match b
    case Access(r, read, write) =>
    case ExplicitRelease(temp) =>
    case Guarded(g, body) =>
      BlockNoSentinel(body);
      GuardCallsBalanced(g);
      forall e | e in Trace(b) ensures !NamesSentinel(e) {
        assert e in Enter(g) + Exit(g) || e in Trace(body);
      }
    case Then(first, second) =>
      BlockNoSentinel(first);
      BlockNoSentinel(second);
  }

  /** For any nesting of guards started on any host stack, the host stack is restored,
      every pop restoring the register that was pushed into that slot. */
  lemma {:induction false} BlockRestoresStack(b: Block, stack: seq<HostReg>)
    ensures Replay(stack, Trace(b)) == Some(stack)
    decreases b
  {
    match b
    case Access(r, read, write) =>
    case ExplicitRelease(temp) =>
      ReplayPoolOnly(stack, Trace(b));
    case Guarded(g, body) =>
      var inner := stack + Saved(g);
      BlockRestoresStack(body, inner);
      GuardStack(g, stack);
      if ReleasedIn(g, body) {
        assert inner == stack;
        assert Replay(inner, Leave(g, body)) == Some(stack);
      }
      ReplayConcat(stack, Enter(g), Trace(body) + Leave(g, body));
      assert Trace(b) == Enter(g) + (Trace(body) + Leave(g, body));
      ReplayConcat(inner, Trace(body), Leave(g, body));
    case Then(first, second) =>
      BlockRestoresStack(first, stack);
      BlockRestoresStack(second, stack);
      ReplayConcat(stack, Trace(first), Trace(second));
  }

  /** An explicit `release()` while a later guard is still alive: the temporary and its
      lock go back before that guard's `unlock`, the temporary guard's destructor makes
      no call, and the calls stay balanced. */
  lemma ReleaseUnderNestedGuard(temp: DspReg, r: DspReg)
    ensures var b := Guarded(TempGuard(temp), Guarded(RegGuard(r, true, false), ExplicitRelease(temp)));
      && Unbound(b) == []
      && Trace(b) == [AquireTemp(temp), Get(temp, false, false), Lock(temp), Get(r, true, false),
                      Lock(r), Unlock(temp), ReleaseTemp(temp), Unlock(r)]
      && Balanced(Trace(b))
  {
    var inner := Guarded(RegGuard(r, true, false), ExplicitRelease(temp));
    var b := Guarded(TempGuard(temp), inner);
    assert Unbound(inner) == [temp];
    assert RemoveFirst([temp], temp) == [];
    assert Trace(inner) == [Get(r, true, false), Lock(r), Unlock(temp), ReleaseTemp(temp), Unlock(r)];
    BlockBalanced(b);
  }

  /** A `release()` as the last statement of a temporary guard's scope makes the calls of
      a guard released before its destructor. */
  lemma ReleaseAtScopeEnd(temp: DspReg)
    ensures Trace(Guarded(TempGuard(temp), ExplicitRelease(temp))) == TempTrace(temp, true)
  {
    assert [temp][1..] == [];
    TempTraceCalls(temp, true);
  }

  /** A `DSPReg` guard's first calls are the `get` and the `lock` of its identifier, and
      its last is the `unlock` of the same identifier, whatever the body does. */
  lemma DSPRegBrackets(r: DspReg, read: bool, write: bool, body: Block)
    ensures var t := Trace(Guarded(RegGuard(r, read, write), body));
      t[0] == Get(r, read, write) && t[1] == Lock(r) && t[|t| - 1] == Unlock(r)
  {
  }

  /** A preservation guard pushes first and pops last exactly when it decided to save
      the register; otherwise it emits nothing of its own. */
  lemma PushGPBrackets(h: HostReg, onlyIfUsedInPool: bool, inUse: bool, body: Block)
    ensures var t := Trace(Guarded(GpGuard(h, onlyIfUsedInPool, inUse), body));
      if !onlyIfUsedInPool || inUse then t[0] == Push(h) && t[|t| - 1] == Pop(h)
      else t == Trace(body)
  {
  }

  lemma PushXMMBrackets(i: nat, inUse: bool, body: Block)
    ensures var t := Trace(Guarded(XmmGuard(i, inUse), body));
      if inUse then t[0] == Push(Xmm(i)) && t[|t| - 1] == Pop(Xmm(i))
      else t == Trace(body)
  {
  }

  // Composite preservation guards

  /** Guards nested in list order: the first is constructed first and destroyed last. */
  function Chain(gs: seq<Guard>, body: Block): Block
    decreases |gs|
  {
    if |gs| == 0 then body else Guarded(gs[0], Chain(gs[1..], body))
  }

  /** The registers a list of guards saves, in push order. */
  function SavedBy(gs: seq<Guard>): seq<HostReg>
    decreases |gs|
  {
    if |gs| == 0 then [] else Saved(gs[0]) + SavedBy(gs[1..])
  }

  /** Pushes of `hs` in order. */
  function Pushes(hs: seq<HostReg>): seq<Event>
    decreases |hs|
  {
    if |hs| == 0 then [] else [Push(hs[0])] + Pushes(hs[1..])
  }

  /** Pops of `hs` in reverse order. */
  function PopsReversed(hs: seq<HostReg>): seq<Event>
    decreases |hs|
  {
    if |hs| == 0 then [] else PopsReversed(hs[1..]) + [Pop(hs[0])]
  }

  /** Guards that only save host registers. */
  predicate SaveGuards(gs: seq<Guard>) {
    forall k | 0 <= k < |gs| :: gs[k].GpGuard? || gs[k].XmmGuard?
  }

  /** A saving guard pushes its saved registers and pops them in reverse. */
  lemma SaveGuardEvents(g: Guard, rest: seq<HostReg>)
    requires g.GpGuard? || g.XmmGuard?
    ensures Pushes(Saved(g) + rest) == Enter(g) + Pushes(rest)
    ensures PopsReversed(Saved(g) + rest) == PopsReversed(rest) + Exit(g)
  {
    if Saved(g) == [] {
      assert Saved(g) + rest == rest;
    } else {
      assert (Saved(g) + rest)[1..] == rest;
    }
  }

  /** A chain of saving guards pushes every saved register in order before the body and
      pops them in reverse order after it. */
  lemma {:induction false} ChainTrace(gs: seq<Guard>, body: Block)
    requires SaveGuards(gs)
    ensures Trace(Chain(gs, body)) == Pushes(SavedBy(gs)) + Trace(body) + PopsReversed(SavedBy(gs))
    decreases |gs|
  {
    if |gs| > 0 {
      var g := gs[0];
      var rest := SavedBy(gs[1..]);
      ChainTrace(gs[1..], body);
      ChainUnfold(gs, body);
      SaveGuardEvents(g, rest);
      Regroup(Enter(g), Pushes(rest), Trace(body), PopsReversed(rest), Exit(g));
    } else {
      assert Trace(Chain(gs, body)) == [] + Trace(body) + [];
    }
  }

  /** The outermost guard of a non-empty chain. */
  lemma ChainUnfold(gs: seq<Guard>, body: Block)
    requires |gs| > 0 && (gs[0].GpGuard? || gs[0].XmmGuard?)
    ensures Trace(Chain(gs, body)) == Enter(gs[0]) + Trace(Chain(gs[1..], body)) + Exit(gs[0])
    ensures SavedBy(gs) == Saved(gs[0]) + SavedBy(gs[1..])
  {
  }

  lemma Regroup(a: seq<Event>, p: seq<Event>, t: seq<Event>, q: seq<Event>, c: seq<Event>)
    ensures a + (p + t + q) + c == (a + p) + t + (q + c)
  {
  }

  /** A register is saved by a list of guards iff one of them saves it. */
  lemma {:induction false} SavedByMembers(gs: seq<Guard>, h: HostReg)
    ensures h in SavedBy(gs) <==> exists k | 0 <= k < |gs| :: h in Saved(gs[k])
    decreases |gs|
  {
    if |gs| > 0 {
      SavedByMembers(gs[1..], h);
      if exists k | 0 <= k < |gs[1..]| :: h in Saved(gs[1..][k]) {
        var k :| 0 <= k < |gs[1..]| && h in Saved(gs[1..][k]);
        assert h in Saved(gs[k + 1]);
      }
      if exists k | 0 <= k < |gs| :: h in Saved(gs[k]) {
        var k :| 0 <= k < |gs| && h in Saved(gs[k]);
        if k > 0 {
          assert h in Saved(gs[1..][k - 1]);
        }
      }
    }
  }

  /** `PushXMMRegs`'s members: `xmm0`..`xmm5`, each saved only if the pool uses it. */
  function XmmRegGuards(inUse: seq<bool>): (gs: seq<Guard>)
    requires |inUse| == 6
    ensures |gs| == 6 && SaveGuards(gs)
  {
    seq(6, k requires 0 <= k < 6 => XmmGuard(k, inUse[k]))
  }

  /** `PushGPRegs`'s members: `r8`..`r11`, each saved only if the pool uses it. */
  function GpRegGuards(inUse: seq<bool>): (gs: seq<Guard>)
    requires |inUse| == 4
    ensures |gs| == 4 && SaveGuards(gs)
  {
    seq(4, k requires 0 <= k < 4 => GpGuard(Gp(8 + k), true, inUse[k]))
  }

  /** `PushBeforeFunctionCall`: the XMM group, then the general-purpose group. */
  function PushBeforeFunctionCall(xmmInUse: seq<bool>, gpInUse: seq<bool>, body: Block): Block
    requires |xmmInUse| == 6 && |gpInUse| == 4
  {
    Chain(XmmRegGuards(xmmInUse) + GpRegGuards(gpInUse), body)
  }

  /** The registers `PushBeforeFunctionCall` saves, in push order. */
  function CallerSaved(xmmInUse: seq<bool>, gpInUse: seq<bool>): seq<HostReg>
    requires |xmmInUse| == 6 && |gpInUse| == 4
  {
    SavedBy(XmmRegGuards(xmmInUse) + GpRegGuards(gpInUse))
  }

  /** Around an external call, the saved registers are pushed in member order before
      the call and popped in reverse order after it. */
  lemma PushBeforeFunctionCallTrace(xmmInUse: seq<bool>, gpInUse: seq<bool>, body: Block)
    requires |xmmInUse| == 6 && |gpInUse| == 4
    ensures var saved := CallerSaved(xmmInUse, gpInUse);
      Trace(PushBeforeFunctionCall(xmmInUse, gpInUse, body)) == Pushes(saved) + Trace(body) + PopsReversed(saved)
  {
    ChainTrace(XmmRegGuards(xmmInUse) + GpRegGuards(gpInUse), body);
  }

  /** The registers saved around an external call are exactly the caller-saved ones
      the pool uses: `xmm0`..`xmm5` and `r8`..`r11`, each iff it is in use. */
  lemma CallerSavedIffInUse(xmmInUse: seq<bool>, gpInUse: seq<bool>)
    requires |xmmInUse| == 6 && |gpInUse| == 4
    ensures var saved := CallerSaved(xmmInUse, gpInUse);
      && (forall i | 0 <= i < 6 :: Xmm(i) in saved <==> xmmInUse[i])
      && (forall i | 0 <= i < 4 :: Gp(8 + i) in saved <==> gpInUse[i])
      && (forall h | h in saved :: (h.Xmm? && h.index < 6) || (h.Gp? && 8 <= h.index < 12))
  {
    var gs := XmmRegGuards(xmmInUse) + GpRegGuards(gpInUse);
    forall i | 0 <= i < 6 ensures Xmm(i) in SavedBy(gs) <==> xmmInUse[i] {
      SavedByMembers(gs, Xmm(i));
      assert gs[i] == XmmGuard(i, xmmInUse[i]);
    }
    forall i | 0 <= i < 4 ensures Gp(8 + i) in SavedBy(gs) <==> gpInUse[i] {
      SavedByMembers(gs, Gp(8 + i));
      assert gs[6 + i] == GpGuard(Gp(8 + i), true, gpInUse[i]);
    }
    forall h | h in SavedBy(gs) ensures (h.Xmm? && h.index < 6) || (h.Gp? && 8 <= h.index < 12) {
      SavedByMembers(gs, h);
    }
  }
}

=== FILE: registerlist.dfy ===
/** `JitDspRegPool::RegisterList<T>`: for one class of host register (general purpose or
    XMM), which emulated registers are resident in which host register, the free-list of
    host registers, and the recency order of the resident identifiers. */
module RegisterLists {
  import opened DspRegs
  import opened Seqs

  /** `m_available` (free host registers, front is taken next), `m_used` (resident
      identifiers in recency order) and `m_usedMap` (one slot per identifier; `None` is a
      reset, invalid host register). */
  datatype RegisterList<T> = RegisterList(available: seq<T>, used: seq<DspReg>, usedMap: seq<Option<T>>)

  /** The list after an `acquire` or `release`, and the host register written to `_dst`;
      `None` stands for a `false` return. */
  datatype Outcome<T> = Outcome(list: RegisterList<T>, host: Option<T>)

  /** `m_usedMap` is an array of `DspCount` slots. */
  predicate Shaped<T>(l: RegisterList<T>) {
    |l.usedMap| == DspCount
  }

  /** The host registers some slot holds. */
  ghost function MappedHosts<T>(m: seq<Option<T>>): set<T> {
    set i | 0 <= i < |m| && m[i].Some? :: m[i].value
  }

  /** Every host register the list knows of, free or bound. */
  ghost function Hosts<T>(l: RegisterList<T>): set<T> {
    Elems(l.available) + MappedHosts(l.usedMap)
  }

  /** The identifiers that currently have a host register. */
  ghost function MappedIds<T>(l: RegisterList<T>): set<DspReg>
    requires Shaped(l)
  {
    set r: DspReg | l.usedMap[r].Some?
  }

  /** No host register is bound to two identifiers. */
  ghost predicate Injective<T>(m: seq<Option<T>>) {
    forall i, j | 0 <= i < j < |m| && m[i].Some? :: m[i] != m[j]
  }

  /** The bookkeeping invariant: the recency order lists exactly the resident
      identifiers, once each; resident identifiers and host registers are in bijection;
      the free-list has no duplicates and shares no register with the bound ones. */
  ghost predicate Inv<T>(l: RegisterList<T>) {
    && Shaped(l)
    && NoDup(l.used)
    && (forall r: DspReg :: r in l.used <==> l.usedMap[r].Some?)
    && Injective(l.usedMap)
    && NoDup(l.available)
    && (forall i | 0 <= i < |l.usedMap| && l.usedMap[i].Some? :: l.usedMap[i].value !in l.available)
  }

  /** The constructor: both vectors empty, every slot reset. */
  function Create<T>(): (l: RegisterList<T>)
    ensures Inv(l)
    ensures Hosts(l) == {} && MappedIds(l) == {}
  {
    RegisterList([], [], seq(DspCount, _ => None))
  }

  // Queries

  predicate IsFull<T>(l: RegisterList<T>) {
    |l.available| == 0
  }

  predicate IsUsed<T>(l: RegisterList<T>, r: DspReg)
    requires Shaped(l)
  {
    l.usedMap[r].Some?
  }

  predicate Empty<T>(l: RegisterList<T>) {
    |l.used| == 0
  }

  function Available<T>(l: RegisterList<T>): nat {
    |l.available|
  }

  function Size<T>(l: RegisterList<T>): nat {
    |l.used|
  }

  /** `isUsed(const T&)`: scans every slot for the host register. */
  method IsUsedHost<T(==)>(l: RegisterList<T>, h: T) returns (b: bool)
    requires Shaped(l)
    ensures b <==> h in MappedHosts(l.usedMap)
  {
    var i := 0;
    while i < DspCount
      invariant 0 <= i <= DspCount
      invariant forall k | 0 <= k < i :: l.usedMap[k] != Some(h)
    {
      if l.usedMap[i] == Some(h) {
        return true;
      }
      i := i + 1;
    }
    return false;
  }

  /** Under the invariant the queries agree with each other: an identifier is used iff it
      is in the recency order, the list is empty iff no identifier is used, and the
      number of used identifiers is `size()`. */
  lemma QueriesAgree<T>(l: RegisterList<T>)
    requires Inv(l)
    ensures forall r: DspReg :: IsUsed(l, r) <==> r in l.used
    ensures Empty(l) <==> forall r: DspReg :: !IsUsed(l, r)
    ensures Size(l) == |MappedIds(l)|
  {
    if !Empty(l) {
      assert IsUsed(l, l.used[0]);
    }
    assert MappedIds(l) == Elems(l.used);
    NoDupCard(l.used);
  }

  /** Under the invariant, `isFull()` holds iff every host register the list knows of is
      bound to an identifier, and `available()` counts distinct free registers, none of
      them bound. */
  lemma FullIffAllBound<T>(l: RegisterList<T>)
    requires Inv(l)
    ensures Elems(l.available) !! MappedHosts(l.usedMap)
    ensures IsFull(l) <==> Hosts(l) == MappedHosts(l.usedMap)
    ensures Available(l) == |Elems(l.available)|
  {
    forall x | x in MappedHosts(l.usedMap) ensures x !in Elems(l.available) {
      var i :| 0 <= i < |l.usedMap| && l.usedMap[i].Some? && l.usedMap[i].value == x;
    }
    if !IsFull(l) {
      assert l.available[0] in Elems(l.available);
    }
    NoDupCard(l.available);
  }

  // Updates

  /** `acquire`: an identifier already resident keeps its host register (moved to the
      back of the recency order unless `pushFront`); otherwise it takes the front of the
      free-list, or the call fails when the free-list is empty. */
  function Acquire<T>(l: RegisterList<T>, reg: DspReg, pushFront: bool): (res: Outcome<T>)
    requires Shaped(l)
    ensures Shaped(res.list)
    ensures res.host.Some? <==> IsUsed(l, reg) || !IsFull(l)
    ensures res.host.Some? ==> res.list.usedMap[reg] == res.host
    ensures res.host.None? ==> res.list == l
    ensures forall o: DspReg :: o != reg ==> res.list.usedMap[o] == l.usedMap[o]
  {
    var existing := l.usedMap[reg];
    if existing.Some? then
      var used := if pushFront then l.used else RemoveFirst(l.used, reg) + [reg];
      Outcome(l.(used := used), existing)
    else if IsFull(l) then
      Outcome(l, None)
    else
      var h := l.available[0];
      Outcome(RegisterList(l.available[1..], Insert(l.used, reg, pushFront), l.usedMap[reg := Some(h)]), Some(h))
  }

  /** `release`: a resident identifier gives its host register back to the free-list
      (front or back) and leaves the recency order; a non-resident one is a no-op. */
  function Release<T>(l: RegisterList<T>, reg: DspReg, pushFront: bool): (res: Outcome<T>)
    requires Shaped(l)
    ensures Shaped(res.list)
    ensures res.host == l.usedMap[reg]
    ensures res.host.None? ==> res.list == l
    ensures !IsUsed(res.list, reg)
    ensures forall o: DspReg :: o != reg ==> res.list.usedMap[o] == l.usedMap[o]
  {
    var dst := l.usedMap[reg];
    if dst.None? then
      Outcome(l, dst)
    else
      Outcome(RegisterList(Insert(l.available, dst.value, pushFront), RemoveFirst(l.used, reg), l.usedMap[reg := None]), dst)
  }

  /** `addHostReg`: a host register joins the back of the free-list. */
  function AddHostReg<T>(l: RegisterList<T>, h: T): (l': RegisterList<T>)
    ensures Available(l') == Available(l) + 1 && l'.available[Available(l)] == h
    ensures l'.available[..Available(l)] == l.available
    ensures Hosts(l') == Hosts(l) + {h}
    ensures l'.used == l.used && l'.usedMap == l.usedMap
  {
    l.(available := l.available + [h])
  }

  /** `clear`: every slot reset and both vectors emptied; the free-list is NOT refilled. */
  function Clear<T>(l: RegisterList<T>): (l': RegisterList<T>)
    ensures Inv(l')
    ensures Empty(l') && IsFull(l') && Size(l') == 0 && Available(l') == 0
    ensures forall r: DspReg :: !IsUsed(l', r)
    ensures MappedHosts(l'.usedMap) == {}
  {
    Create()
  }

  // Properties of `acquire`

  /** Acquiring a resident identifier returns its host register and changes neither the
      free-list nor the slots; with `pushFront` the order is kept, otherwise the
      identifier moves to the back and the others keep their relative order. */
  lemma AcquireResident<T>(l: RegisterList<T>, reg: DspReg, pushFront: bool)
    requires Inv(l) && IsUsed(l, reg)
    ensures var res := Acquire(l, reg, pushFront);
      && res.host == l.usedMap[reg]
      && res.list.available == l.available
      && res.list.usedMap == l.usedMap
      && (pushFront ==> res.list.used == l.used)
      && (!pushFront ==>
            && res.list.used[Size(res.list) - 1] == reg
            && res.list.used[..Size(res.list) - 1] == RemoveFirst(l.used, reg)
            && multiset(res.list.used) == multiset(l.used))
  {
    var used := RemoveFirst(l.used, reg) + [reg];
    assert used[..|used| - 1] == RemoveFirst(l.used, reg);
  }

  /** Acquiring a non-resident identifier while a host register is free binds exactly the
      front of the free-list to it and records it at the requested end of the recency
      order: one fewer free register, one more resident identifier. */
  lemma AcquireFresh<T>(l: RegisterList<T>, reg: DspReg, pushFront: bool)
    requires Inv(l) && !IsUsed(l, reg) && !IsFull(l)
    ensures var res := Acquire(l, reg, pushFront);
      && res.host == Some(l.available[0])
      && res.list.available == l.available[1..]
      && res.list.usedMap == l.usedMap[reg := res.host]
      && (pushFront ==> res.list.used == [reg] + l.used)
      && (!pushFront ==> res.list.used == l.used + [reg])
      && Available(res.list) == Available(l) - 1
      && Size(res.list) == Size(l) + 1
  {
  }

  lemma MappedHostsBind<T>(m: seq<Option<T>>, reg: DspReg, h: T)
    requires |m| == DspCount && m[reg].None?
    ensures MappedHosts(m[reg := Some(h)]) == MappedHosts(m) + {h}
  {
    var m' := m[reg := Some(h)];
    assert h in MappedHosts(m') by {
      assert m'[reg] == Some(h);
    }
    forall x | x in MappedHosts(m) ensures x in MappedHosts(m') {
      var i :| 0 <= i < |m| && m[i].Some? && m[i].value == x;
      assert m'[i] == m[i];
    }
  }

  lemma MappedHostsUnbind<T>(m: seq<Option<T>>, reg: DspReg)
    requires |m| == DspCount && m[reg].Some? && Injective(m)
    ensures MappedHosts(m[reg := None]) == MappedHosts(m) - {m[reg].value}
  {
    var m' := m[reg := None];
    forall x | x in MappedHosts(m) && x != m[reg].value ensures x in MappedHosts(m') {
      var i :| 0 <= i < |m| && m[i].Some? && m[i].value == x;
      assert m'[i] == m[i];
    }
    forall x | x in MappedHosts(m') ensures x != m[reg].value {
      var i :| 0 <= i < |m'| && m'[i].Some? && m'[i].value == x;
      assert i != reg && m[i] == m'[i];
    }
  }

  /** `acquire` keeps the invariant, the total number of host registers
      (`available() + size()`) and the set of host registers the list knows of. */
  lemma AcquirePreserves<T>(l: RegisterList<T>, reg: DspReg, pushFront: bool)
    requires Inv(l)
    ensures var l' := Acquire(l, reg, pushFront).list;
      && Inv(l')
      && Available(l') + Size(l') == Available(l) + Size(l)
      && Hosts(l') == Hosts(l)
  {
    var l' := Acquire(l, reg, pushFront).list;
    if IsUsed(l, reg) {
      if !pushFront {
        RemoveFirstNoDup(l.used, reg);
        InsertNoDup(RemoveFirst(l.used, reg), reg, false);
        assert Insert(RemoveFirst(l.used, reg), reg, false) == l'.used;
      }
    } else if !IsFull(l) {
      var h := l.available[0];
      assert h !in l.available[1..] by {
        assert forall k | 1 <= k < |l.available| :: l.available[k] != h;
      }
      assert NoDup(l'.available) by {
        forall i, j | 0 <= i < j < |l'.available| ensures l'.available[i] != l'.available[j] {
          assert l'.available[i] == l.available[i + 1] && l'.available[j] == l.available[j + 1];
        }
      }
      InsertNoDup(l.used, reg, pushFront);
      assert Injective(l'.usedMap) by {
        forall i, j | 0 <= i < j < |l'.usedMap| && l'.usedMap[i].Some? ensures l'.usedMap[i] != l'.usedMap[j] {
          if i == reg {
            assert l'.usedMap[j] == l.usedMap[j];
          } else if j == reg {
            assert l'.usedMap[i] == l.usedMap[i];
          }
        }
      }
      MappedHostsBind(l.usedMap, reg, h);
      assert Elems(l.available) == Elems(l'.available) + {h} by {
        assert l.available == [h] + l'.available;
      }
    }
  }

  // Properties of `release`

  /** Releasing a resident identifier returns its host register, puts that register on
      the free-list at the requested end and drops the identifier from the recency
      order, the others keeping their order: one more free register, one fewer resident
      identifier. */
  lemma ReleaseResident<T>(l: RegisterList<T>, reg: DspReg, pushFront: bool)
    requires Inv(l) && IsUsed(l, reg)
    ensures var res := Release(l, reg, pushFront);
      && res.host == l.usedMap[reg]
      && (pushFront ==> res.list.available == [res.host.value] + l.available)
      && (!pushFront ==> res.list.available == l.available + [res.host.value])
      && res.list.used == RemoveFirst(l.used, reg)
      && reg !in res.list.used
      && res.list.usedMap == l.usedMap[reg := None]
      && Available(res.list) == Available(l) + 1
      && Size(res.list) == Size(l) - 1
  {
    RemoveFirstNoDup(l.used, reg);
  }

  /** `release` keeps the invariant, `available() + size()` and the set of host
      registers the list knows of. */
  lemma ReleasePreserves<T>(l: RegisterList<T>, reg: DspReg, pushFront: bool)
    requires Inv(l)
    ensures var l' := Release(l, reg, pushFront).list;
      && Inv(l')
      && Available(l') + Size(l') == Available(l) + Size(l)
      && Hosts(l') == Hosts(l)
  {
    var l' := Release(l, reg, pushFront).list;
    if IsUsed(l, reg) {
      var h := l.usedMap[reg].value;
      assert h !in l.available;
      InsertNoDup(l.available, h, pushFront);
      RemoveFirstNoDup(l.used, reg);
      assert forall x :: x in l'.available <==> x == h || x in l.available by {
        assert multiset(l'.available) == multiset(l.available) + multiset{h};
        forall x ensures x in l'.available <==> x == h || x in l.available {
          assert x in l'.available <==> x in multiset(l'.available);
          assert x in l.available <==> x in multiset(l.available);
        }
      }
      forall i | 0 <= i < |l'.usedMap| && l'.usedMap[i].Some?
        ensures l'.usedMap[i].value !in l'.available
      {
        assert i != reg && l'.usedMap[i] == l.usedMap[i];
      }
      MappedHostsUnbind(l.usedMap, reg);
    }
  }

  // Round trips

  /** Acquiring a free identifier and releasing it to the front restores the list
      exactly, and the release hands back the register the acquire took. */
  lemma AcquireThenRelease<T>(l: RegisterList<T>, reg: DspReg, pushFront: bool)
    requires Inv(l) && !IsUsed(l, reg) && !IsFull(l)
    ensures Release(Acquire(l, reg, pushFront).list, reg, true) == Outcome(l, Some(l.available[0]))
  {
    var l' := Acquire(l, reg, pushFront).list;
    assert reg !in l.used;
    if !pushFront {
      RemoveFirstAppended(l.used, reg);
    }
    assert l'.usedMap[reg := None] == l.usedMap;
    assert [l.available[0]] + l.available[1..] == l.available;
  }

  /** Releasing a resident identifier to the front and acquiring it again hands back the
      same host register and restores the free-list and the slots. */
  lemma ReleaseThenAcquire<T>(l: RegisterList<T>, reg: DspReg, pushFront: bool)
    requires Inv(l) && IsUsed(l, reg)
    ensures var res := Acquire(Release(l, reg, true).list, reg, pushFront);
      && res.host == l.usedMap[reg]
      && res.list.available == l.available
      && res.list.usedMap == l.usedMap
  {
    var l' := Release(l, reg, true).list;
    assert l'.available[1..] == l.available;
    assert l'.usedMap[reg := l.usedMap[reg]] == l.usedMap;
  }

  // Initialisation

  /** `addHostReg` keeps the invariant when the register is new to the list, which is
      how the pool seeds each class with distinct host registers. */
  lemma AddHostRegPreserves<T>(l: RegisterList<T>, h: T)
    requires Inv(l) && h !in Hosts(l)
    ensures Inv(AddHostReg(l, h))
  {
    var l' := AddHostReg(l, h);
    assert h !in l.available;
    InsertNoDup(l.available, h, false);
    assert Insert(l.available, h, false) == l'.available;
    forall i | 0 <= i < |l'.usedMap| && l'.usedMap[i].Some? ensures l'.usedMap[i].value !in l'.available {
      assert l.usedMap[i].value in MappedHosts(l.usedMap);
    }
  }

  /** Seeding a freshly constructed list with distinct host registers yields a valid list
      whose free-list is exactly those registers, in order, and nothing resident. */
  lemma {:induction false} SeedList<T>(hs: seq<T>)
    requires NoDup(hs)
    ensures var l := Seed(hs);
      && Inv(l)
      && l.available == hs
      && Empty(l)
      && Hosts(l) == Elems(hs)
    decreases |hs|
  {
    if |hs| > 0 {
      var init, last := hs[..|hs| - 1], hs[|hs| - 1];
      assert hs == init + [last];
      assert NoDup(init);
      SeedList(init);
      assert last !in init;
      assert Elems(hs) == Elems(init) + {last};
      var l0 := Seed(init);
      assert Seed(hs) == AddHostReg(l0, last);
      assert last !in Hosts(l0);
      AddHostRegPreserves(l0, last);
    }
  }

  /** `addHostReg` applied to each register of `hs` in turn, starting from the constructor. */
  function Seed<T>(hs: seq<T>): RegisterList<T>
    decreases |hs|
  {
    if |hs| == 0 then Create() else AddHostReg(Seed(hs[..|hs| - 1]), hs[|hs| - 1])
  }
}

=== FILE: regmask.dfy ===
/** The 64-bit per-register masks of `JitDspRegPool` (`m_lockedGps`, `m_writtenDspRegs`).
    A word is represented by the set of positions of its one-bits; bit `r` belongs to
    the identifier with ordinal `r`. `|` is union, `& ~` is difference, and "the word
    is non-zero" is "the set is non-empty". */
module RegMask {
  import opened DspRegs

  /** A `uint64_t`: every one-bit lies below the word width. */
  type Mask = m: set<int> | forall i | i in m :: 0 <= i < MaskWidth witness {}

  /** The all-zero word. */
  const Zero: Mask := {}

  /** `1ull << r`: a single one-bit, which exists because the enumeration is no
      wider than the word. */
  function Bit(r: DspReg): (b: Mask)
    ensures r in b && |b| == 1
  {
    DspRegs.EnumerationLayout();
    {r}
  }

  /** `(m & (1ull << r)) != 0`. */
  predicate Test(m: Mask, r: DspReg) {
    m * Bit(r) != Zero
  }

  /** No bit outside the enumeration is set. Every mask built from zero through
      `Set` and `Clear` has this shape. */
  predicate Confined(m: Mask) {
    forall i | i in m :: i < DspCount
  }

  /** `m | (1ull << r)`: the bit of `r` becomes set, every other identifier's bit is kept. */
  function Set(m: Mask, r: DspReg): (m': Mask)
    ensures forall s: DspReg :: Test(m', s) <==> s == r || Test(m, s)
    ensures Confined(m) ==> Confined(m')
  {
    m + Bit(r)
  }

  /** `m & ~(1ull << r)`: the bit of `r` becomes clear, every other identifier's bit is kept. */
  function Clear(m: Mask, r: DspReg): (m': Mask)
    ensures forall s: DspReg :: Test(m', s) <==> s != r && Test(m, s)
    ensures Confined(m) ==> Confined(m')
  {
    m - Bit(r)
  }

  /** For a confined mask, "the word is non-zero" means exactly "some identifier's bit
      is set": no identifier's flag is lost and no stray bit is counted. */
  lemma NonZeroIffSomeSet(m: Mask)
    requires Confined(m)
    ensures m != Zero <==> exists r: DspReg :: Test(m, r)
  {
    if forall r: DspReg :: !Test(m, r) {
      forall i | i in m ensures false {
        assert Test(m, i);
      }
      assert m == Zero;
    }
  }
}

=== FILE: scratchpool.dfy ===
/** The scratch-register stack `JitRegpool` and the scoped holder `JitScopedReg` built on
    it. These host registers never stand for emulated registers. */
module ScratchPool {

  /** `m_availableRegs`, a `std::stack`: the last element is the top. */
  datatype JitRegpool<R> = JitRegpool(regs: seq<R>)

  /** The constructor pushes the given registers in order, so the last one is on top. */
  function Create<R>(availableRegs: seq<R>): (p: JitRegpool<R>)
    ensures Count(p) == |availableRegs|
    ensures |availableRegs| > 0 ==> Top(p) == availableRegs[|availableRegs| - 1]
  {
    JitRegpool(availableRegs)
  }

  function Count<R>(p: JitRegpool<R>): nat {
    |p.regs|
  }

  /** `empty()`. */
  predicate Empty<R>(p: JitRegpool<R>) {
    |p.regs| == 0
  }

  function Top<R>(p: JitRegpool<R>): R
    requires !Empty(p)
  {
    p.regs[|p.regs| - 1]
  }

  /** `put`: pushes one register. */
  function Put<R>(p: JitRegpool<R>, r: R): (p': JitRegpool<R>)
    ensures !Empty(p') && Top(p') == r
    ensures Count(p') == Count(p) + 1
    ensures multiset(p'.regs) == multiset(p.regs) + multiset{r}
  {
    JitRegpool(p.regs + [r])
  }

  /** `get`: asserts that a register is left, then pops and returns the top. */
  function Get<R>(p: JitRegpool<R>): (res: (R, JitRegpool<R>))
    requires !Empty(p)
    ensures res.0 == Top(p)
    ensures Count(res.1) == Count(p) - 1
    ensures multiset(res.1.regs) + multiset{res.0} == multiset(p.regs)
  {
    var top := Top(p);
    assert p.regs == p.regs[..|p.regs| - 1] + [top];
    (top, JitRegpool(p.regs[..|p.regs| - 1]))
  }

  /** `empty()` is false exactly when the pool is some pool with one more register put
      on it, i.e. when `get` has something to undo; a pool built from no registers is
      empty. */
  lemma EmptyMeansNothingLeft<R>(p: JitRegpool<R>)
    ensures !Empty(p) <==> exists q: JitRegpool<R>, r: R :: p == Put(q, r)
    ensures Empty(Create<R>([]))
  {
    if !Empty(p) {
      GetThenPut(p);
    }
  }

  /** `put(r)` then `get()` returns `r` and restores the pool. */
  lemma PutThenGet<R>(p: JitRegpool<R>, r: R)
    ensures Get(Put(p, r)) == (r, p)
  {
    assert (p.regs + [r])[..|p.regs|] == p.regs;
  }

  /** `get()` then `put` of the result restores the pool. */
  lemma GetThenPut<R>(p: JitRegpool<R>)
    requires !Empty(p)
    ensures Put(Get(p).1, Get(p).0) == p
  {
  }

  /** Popping `n` registers, collected in the order they come off the stack. */
  function GetN<R>(p: JitRegpool<R>, n: nat): (res: (seq<R>, JitRegpool<R>))
    requires n <= Count(p)
    ensures |res.0| == n && Count(res.1) == Count(p) - n
    decreases n
  {
    if n == 0 then ([], p)
    else
      var (r, p') := Get(p);
      var (rs, p'') := GetN(p', n - 1);
      ([r] + rs, p'')
  }

  function Reverse<R>(s: seq<R>): (r: seq<R>)
    ensures |r| == |s|
    ensures forall i | 0 <= i < |s| :: r[i] == s[|s| - 1 - i]
  {
    if |s| == 0 then [] else [s[|s| - 1]] + Reverse(s[..|s| - 1])
  }

  /** LIFO: draining a pool built from `availableRegs` hands them out last-first and
      leaves the pool empty. */
  lemma {:induction false} DrainIsReverse<R>(rest: seq<R>, availableRegs: seq<R>)
    ensures GetN(Create(rest + availableRegs), |availableRegs|) == (Reverse(availableRegs), Create(rest))
    decreases |availableRegs|
  {
    if |availableRegs| > 0 {
      var init := availableRegs[..|availableRegs| - 1];
      var last := availableRegs[|availableRegs| - 1];
      assert rest + availableRegs == (rest + init) + [last];
      assert Get(Create(rest + availableRegs)) == (last, Create(rest + init)) by {
        PutThenGet(Create(rest + init), last);
      }
      DrainIsReverse(rest, init);
      assert Reverse(availableRegs) == [last] + Reverse(init);
    } else {
      assert rest + availableRegs == rest;
    }
  }

  /** `JitScopedReg`: whether a register is held, and which. */
  datatype JitScopedReg<R> = JitScopedReg(acquired: bool, reg: R)

  /** `acquire`: a no-op while a register is held; otherwise takes one from the pool
      (whose `get` asserts that one is left). */
  function ScopedAcquire<R>(g: JitScopedReg<R>, p: JitRegpool<R>): (res: (JitScopedReg<R>, JitRegpool<R>))
    requires g.acquired || !Empty(p)
    ensures res.0.acquired
    ensures g.acquired ==> res == (g, p)
    ensures !g.acquired ==> res.0.reg == Top(p) && Put(res.1, res.0.reg) == p
  {
    if g.acquired then (g, p)
    else
      var (r, p') := Get(p);
      GetThenPut(p);
      (JitScopedReg(true, r), p')
  }

  /** `release`: a no-op unless a register is held; otherwise returns it to the pool. */
  function ScopedRelease<R>(g: JitScopedReg<R>, p: JitRegpool<R>): (res: (JitScopedReg<R>, JitRegpool<R>))
    ensures !res.0.acquired
    ensures !g.acquired ==> res == (g, p)
    ensures g.acquired ==> res.1 == Put(p, g.reg)
  {
    if !g.acquired then (g, p)
    else (g.(acquired := false), Put(p, g.reg))
  }

  /** The registers a scoped holder and its pool account for together. */
  function Held<R>(g: JitScopedReg<R>, p: JitRegpool<R>): multiset<R> {
    multiset(p.regs) + if g.acquired then multiset{g.reg} else multiset{}
  }

  /** A second `acquire` takes nothing more from the pool, a second `release` gives
      nothing more back, and neither call loses or duplicates a register. */
  lemma ScopedIdempotent<R>(g: JitScopedReg<R>, p: JitRegpool<R>)
    requires g.acquired || !Empty(p)
    ensures var a := ScopedAcquire(g, p); ScopedAcquire(a.0, a.1) == a
    ensures var r := ScopedRelease(g, p); ScopedRelease(r.0, r.1) == r
    ensures var a := ScopedAcquire(g, p); Held(a.0, a.1) == Held(g, p)
    ensures var r := ScopedRelease(g, p); Held(r.0, r.1) == Held(g, p)
  {
  }

  /** An acquire-then-release round trip restores the pool: the register goes back
      exactly once. */
  lemma ScopedRoundTrip<R>(g: JitScopedReg<R>, p: JitRegpool<R>)
    requires !g.acquired && !Empty(p)
    ensures var a := ScopedAcquire(g, p); ScopedRelease(a.0, a.1).1 == p
  {
  }
}

=== FILE: seqs.dfy ===
/** Sequence helpers shared by the register lists: the front/back insertion that the
    pools use for their free-lists and recency orders, and `std::vector` erase-first. */
module Seqs {

  /** A slot that may hold a value; `None` is the "reset" (invalid) register. */
  datatype Option<T> = None | Some(value: T)

  /** No element occurs twice. */
  predicate NoDup<T(==)>(s: seq<T>) {
    forall i, j | 0 <= i < j < |s| :: s[i] != s[j]
  }

  /** Insert at the front (`insert(begin(), x)` / `push_front`) or at the back (`push_back`). */
  function Insert<T>(s: seq<T>, x: T, front: bool): (r: seq<T>)
    ensures multiset(r) == multiset(s) + multiset{x}
    ensures front ==> r[0] == x && r[1..] == s
    ensures !front ==> r[|r| - 1] == x && r[..|s|] == s
  {
    if front then [x] + s else s + [x]
  }

  /** Inserting an element not yet present keeps a sequence duplicate-free. */
  lemma InsertNoDup<T>(s: seq<T>, x: T, front: bool)
    requires NoDup(s) && x !in s
    ensures NoDup(Insert(s, x, front))
  {
    var r := Insert(s, x, front);
    forall i, j | 0 <= i < j < |r| ensures r[i] != r[j] {
      if front {
        if i > 0 {
          assert r[i] == s[i - 1];
        }
        assert r[j] == s[j - 1];
      } else {
        assert r[i] == s[i];
        if j < |s| {
          assert r[j] == s[j];
        }
      }
    }
  }

  /** Erase the first occurrence of `x`, if any; the loop-and-break `remove` of `RegisterList`. */
  function RemoveFirst<T(==)>(s: seq<T>, x: T): (r: seq<T>)
    ensures x in s ==> multiset(r) == multiset(s) - multiset{x} && |r| == |s| - 1
    ensures x !in s ==> r == s
  {
    if |s| == 0 then s
    else
      assert s == [s[0]] + s[1..];
      if s[0] == x then s[1..]
      else [s[0]] + RemoveFirst(s[1..], x)
  }

  /** The position of the first occurrence of `x`. */
  function FirstIndex<T(==)>(s: seq<T>, x: T): (i: nat)
    requires x in s
    ensures i < |s| && s[i] == x && x !in s[..i]
  {
    if s[0] == x then 0
    else
      assert x in s[1..] by {
        var k :| 0 <= k < |s| && s[k] == x;
        assert s[1..][k - 1] == x;
      }
      var i := 1 + FirstIndex(s[1..], x);
      assert s[..i] == [s[0]] + s[1..][..i - 1];
      i
  }

  /** Erasing removes the first occurrence of `x` and nothing else: the elements before
      it and after it keep their order. */
  lemma {:induction false} RemoveFirstKeepsOrder<T>(s: seq<T>, x: T)
    requires x in s
    ensures var i := FirstIndex(s, x); RemoveFirst(s, x) == s[..i] + s[i + 1..]
  {
    if s[0] == x {
      assert s[..0] + s[1..] == s[1..];
    } else {
      var i := FirstIndex(s[1..], x);
      assert RemoveFirst(s[1..], x) == s[1..][..i] + s[1..][i + 1..] by {
        RemoveFirstKeepsOrder(s[1..], x);
      }
      assert FirstIndex(s, x) == i + 1;
      ConsSplit(s, i);
    }
  }

  /** Cutting position `i` out of the tail and putting the head back in front. */
  lemma ConsSplit<T>(s: seq<T>, i: nat)
    requires i + 1 < |s|
    ensures [s[0]] + (s[1..][..i] + s[1..][i + 1..]) == s[..i + 1] + s[i + 2..]
  {
    assert s[..i + 1] == [s[0]] + s[1..][..i];
    assert s[i + 2..] == s[1..][i + 1..];
  }

  /** On a duplicate-free sequence, erasing `x` leaves exactly the other elements, still
      without duplicates. */
  lemma {:induction false} RemoveFirstNoDup<T>(s: seq<T>, x: T)
    requires NoDup(s)
    ensures NoDup(RemoveFirst(s, x))
    ensures forall y :: y in RemoveFirst(s, x) <==> y in s && y != x
  {
    if |s| > 0 && s[0] != x {
      assert NoDup(s[1..]) by {
        forall i, j | 0 <= i < j < |s[1..]| ensures s[1..][i] != s[1..][j] {
          assert s[1..][i] == s[i + 1] && s[1..][j] == s[j + 1];
        }
      }
      RemoveFirstNoDup(s[1..], x);
      var rest := RemoveFirst(s[1..], x);
      assert s[0] !in rest by {
        assert forall k | 1 <= k < |s| :: s[k] != s[0];
      }
      forall i, j | 0 <= i < j < |[s[0]] + rest| ensures ([s[0]] + rest)[i] != ([s[0]] + rest)[j] {
        if i > 0 {
          assert ([s[0]] + rest)[i] == rest[i - 1];
        }
        assert ([s[0]] + rest)[j] == rest[j - 1];
      }
    } else if |s| > 0 {
      forall i, j | 0 <= i < j < |s[1..]| ensures s[1..][i] != s[1..][j] {
        assert s[1..][i] == s[i + 1] && s[1..][j] == s[j + 1];
      }
      assert forall k | 1 <= k < |s| :: s[k] != s[0];
    }
  }

  /** Erasing an element that was just appended and occurs nowhere else restores the
      original sequence. */
  lemma {:induction false} RemoveFirstAppended<T>(s: seq<T>, x: T)
    requires x !in s
    ensures RemoveFirst(s + [x], x) == s
  {
    if |s| > 0 {
      assert (s + [x])[1..] == s[1..] + [x];
      RemoveFirstAppended(s[1..], x);
    }
  }

  /** The elements of a sequence, as a set. */
  ghost function Elems<T>(s: seq<T>): set<T> {
    set x | x in s
  }

  /** The elements of a duplicate-free sequence are as many as its length. */
  lemma {:induction false} NoDupCard<T>(s: seq<T>)
    requires NoDup(s)
    ensures |Elems(s)| == |s|
  {
    if |s| > 0 {
      var t := s[..|s| - 1];
      assert NoDup(t);
      NoDupCard(t);
      var last := s[|s| - 1];
      assert last !in t;
      assert Elems(s) == Elems(t) + {last};
    }
  }
}
